=== FILE: README.md ===
# Step 4 of the sperm segmentation pipeline: head and flagellum separation

This project models the fourth step of a sperm-motility analysis pipeline in Dafny.
The step is `DetectingSpermBody` in `Code/Step4.py`, together with its helpers in `Code/Step4Helpers.py`.
It takes a movie of binary segmentation masks and works frame by frame:

1. It reads the foreground pixels of the frame as (row, column) pairs (`Mask.Pixels`).
2. It drops the pixels that lie outside a box of `threshold1` standard deviations around the means (`Outliers.RemoveOutliers2D`).
3. It decides whether the body swims horizontally (`Detect.Horizontal`).
4. It sorts the body along that axis with `np.argsort` (the `sort` parameter, constrained by `Sorting.SortsOn`). The same `sort` stands for the `np.argsort` inside `GoodFrameTest` (`Code/Step4Helpers.py:126`).
5. It extracts a lower and an upper boundary curve (`Envelope.SimplifyX` / `Envelope.SimplifyY`).
6. It builds a width profile along the axis and accepts or rejects the frame (`GoodFrame.GoodFrameTest`).
7. On an accepted frame, it splits the boundary rows into a head and a flagellum at a mirrored index (`Separate.SeparateHeadTail`).

Rejected frames are zeroed in the returned movie. The per-frame results are collected into the `sperm` record (`Movie.DetectingSpermBody`).

Modelling choices:

- **Points.** A point is an `(int, int)` pair, and a 2-column array is a `seq<Point>`.
- **The independent axis.** `SimplifyX` and `SimplifyY` are both defined directly, on column 1 and column 0 respectively. `Envelope.SimplifyXIsFlippedSimplifyY` proves that they mirror each other under `np.fliplr`. The frame pipeline can therefore reason about column 0 only.
- **The sort.** `np.argsort` with its default algorithm returns some permutation that ascends on the key, with ties in an unspecified order. The pipeline takes the sort as a parameter `sort` and assumes only `Sorting.SortsOn(sort)`: every result is a permutation of its input, sorted on the key. `Sorting.SortOn` is the stable instance (`Sorting.SortOnSorts`).
- **Errors.** Python exceptions that the code can reach become `Failure` values of a `Result`:
  - `np.argmax` of an empty profile;
  - an index one past the profile;
  - a `np.amin` of an empty `np.where`;
  - the `np.concatenate` dimension mismatch.
- **Standard deviations.** They are not computed with a square root. The box test `m - c·sd <= v <= m + c·sd` is stated in squared form over the exact population variance, and `Outliers.WithinDeviationsIsInterval` proves it equivalent to the interval test for every `sd >= 0` with `sd·sd` equal to the variance.

Some behaviours of the code are easy to misread. The model follows the code:

- **Empty body.** A frame whose outlier-free body is empty is not a bad frame. `np.argmax` of the empty profile raises (`Code/Step4Helpers.py:154`), and the whole run aborts. `GoodFrame.GoodFrameTest` returns `Failure(EmptyArgMax)` and `Movie.DetectingSpermBody` stops with that error.
- **Body outlier box.** The box is closed. Values equal to the bounds are kept (`>=` / `<=`, `Code/Step4Helpers.py:29`), and the model keeps them too.
- **Head outliers.** The comment at `Code/Step4Helpers.py:215` says the outliers are moved to the tail. The code raises on the first one (see Findings). The model logs this behaviour as written and uses the corrected behaviour elsewhere.
- **Tie order of the sort.** The docstrings at `Code/Step4Helpers.py:44-46` and `Code/Step4Helpers.py:75-77` ask for input that ascends on the other column within each key. `np.argsort` at `Code/Step4.py:76` and `Code/Step4.py:84` does not promise that (see Findings). The model states the curve bracketing for the stable sort only.
- **Mirrored index with p = 0.** When the widest profile entry is the first one, `2p - 1` is `-1`, and Python reads the last profile entry. The model does the same (`Separate.LeadingMaximumWraps`). It does not guess another intent.

## Model

| member | source | states |
|---|---|---|
| Mask.Pixels | Code/Step4.py:58-60 | the pixel list holds exactly the frame's pixels labelled 1, each once, in row-major order |
| Mask.RowPixels | Code/Step4.py:58 | one row's pixels labelled 1 from a column on: exact membership and left-to-right order |
| Mask.PixelsFrom | Code/Step4.py:58-60 | the pixels labelled 1 from a row on: exact membership and row-major order |
| Mask.RowMajorKeyed | Code/Step4.py:58-60 | within one value of either column, row-major pixels ascend on the other column, as `SimplifyX`/`SimplifyY` document for their input |
| Outliers.RemoveOutliers2D | Code/Step4Helpers.py:12-39 | the result is the input's rows in order, every kept row lies in the closed mean ± c·std box on both columns, every row in the box is kept with its full multiplicity, and an empty input gives an empty result |
| Outliers.Variance | Code/Step4Helpers.py:16-17 | the population variance (the square of `np.std`) is never negative, and it is 0 on a constant column |
| Outliers.Keep | Code/Step4Helpers.py:28-37 | filtering by a fixed box keeps an order-preserving subsequence of exactly the rows inside, with their multiplicities |
| Outliers.WithinDeviationsIsInterval | Code/Step4Helpers.py:16-23 | the squared-deviation test equals `mean - c·sd <= v <= mean + c·sd` for any `sd >= 0` whose square is the population variance |
| Distinct.Insert | Code/Step4Helpers.py:56 | inserting into a strictly ascending list keeps it strictly ascending and adds exactly that value |
| Distinct.Unique | Code/Step4Helpers.py:87 | `np.unique` gives a strictly ascending list with exactly the input's values |
| Distinct.IncreasingDeterminedByElems | Code/Step4Helpers.py:128 | two strictly ascending lists with the same values are equal, so `np.unique`'s result is determined by the value set |
| Distinct.UniqueDependsOnElems | Code/Step4Helpers.py:128 | inputs with the same value set have the same `np.unique` |
| Distinct.IncreasingCount | Code/Step4.py:64-65 | a strictly ascending list has as many entries as distinct values |
| Distinct.UniqueCount | Code/Step4.py:64-65 | `len(np.unique(c))` is the number of distinct values of `c` |
| Detect.Horizontal | Code/Step4.py:64-82 | the body is horizontal iff it has at least as many distinct column values as distinct row values |
| Detect.FrameBody | Code/Step4.py:58-62 | the outlier-free body holds exactly the frame's pixels labelled 1 that lie in the threshold1 box of all such pixels, in row-major order |
| Detect.BoundaryCurves | Code/Step4.py:72-88 | for any permitted sort, the stored body is the sort's result, a permutation of the body sorted on the axis, and in both branches the curves, oriented so that column 0 is the independent axis (the `np.fliplr` at lines 100-101), are `SimplifyY` of the oriented sorted body |
| Detect.StableCurvesBracketBody | Code/Step4.py:58-109 | with the stable sort, on every frame the oriented curves are the per-key minimum and maximum of the oriented body: every pixel lies between them at its key |
| Detect.ArgsortTiesBreakEnvelope | Code/Step4.py:84 | a sort that `np.argsort` may perform (a permutation sorted on the key) reverses a tie on a vertical body, and the lower curve then starts at (0, 1) although the body holds (0, 0) |
| Sorting.InsertOn | Code/Step4.py:76 | inserting a row into rows sorted on a column keeps them sorted and adds exactly that row |
| Sorting.SortOn | Code/Step4.py:76-84 | the stable sort: a permutation of the body sorted on column c |
| Sorting.SortOnSorts | Code/Step4.py:76-84 | the stable sort is one of the orders `body[np.argsort(body[:, c])]` may produce: every result is a permutation sorted on the key |
| Sorting.InsertOnKeyedAscending | Code/Step4.py:76-84 | inserting a row that leads its key into rows keyed-ascending on (key, other column) keeps them keyed-ascending |
| Sorting.SortOnKeyedAscending | Code/Step4Helpers.py:42-46 | the stable sort of row-major pixels on one column leaves them ascending on the other column within each key, which is the input order the docstrings ask for; `np.argsort` at Code/Step4.py:76-84 does not promise this |
| Points.FirstIndex | Code/Step4Helpers.py:98 | `np.amin(np.where(s == v))`: the first position holding v |
| Points.LastIndex | Code/Step4Helpers.py:100 | `np.amax(np.where(s == v))`: the last position holding v |
| Points.SubsequenceKeepsOrder | Code/Step4Helpers.py:37 | a boolean-mask selection keeps only input rows and keeps any order the input had |
| Points.InColumn | Code/Step4Helpers.py:138-139 | `np.in1d(v, s[:, c])` holds iff some row carries v in column c |
| Points.Flip | Code/Step4.py:100-125 | `np.fliplr` keeps the row count and exchanges the two columns |
| Points.Mean | Code/Step4Helpers.py:14-15 | `np.mean` of a column times its length is the column's sum |
| Points.MeanBetween | Code/Step4Helpers.py:14-17 | the mean of a non-empty column lies between any lower and upper bound of its values |
| Envelope.SimplifyY | Code/Step4Helpers.py:85-101 | one row per distinct column-0 value, strictly ascending, and each row is the first (b = 1) or last (b = 0) input row with that key |
| Envelope.SimplifyX | Code/Step4Helpers.py:54-70 | the same on column 1: one row per distinct column-1 value, ascending, and each row is the first or last input row with that key |
| Envelope.KeyedCurve | Code/Step4Helpers.py:54-101 | the loop both helpers run, for either key column: the key column of the result is `np.unique` of the input's, and each row is the first or last input row carrying its key |
| Envelope.SimplifyXIsFlippedSimplifyY | Code/Step4Helpers.py:54-101 | the two helpers mirror each other: `SimplifyX` of an array, with its columns swapped, is `SimplifyY` of the column-swapped array |
| Envelope.EnvelopeBrackets | Code/Step4Helpers.py:42-101 | on input in the order the docstrings ask for (ascending on the key, and on the other column within a key), the two curves share their keys and every row lies between the lower and the upper curve at its key |
| Detect.CurvesEmptyIffBodyEmpty | Code/Step4.py:72-109 | for any permitted sort, the two curves are both empty iff the outlier-free body is empty |
| GoodFrame.ArgMax | Code/Step4Helpers.py:154 | `np.argmax`: a position of the largest value, and no earlier position holds it |
| GoodFrame.WidthProfile | Code/Step4Helpers.py:128-151 | the profile's keys are the union of both curves' keys, strictly ascending, each width lies in [0, maxheadwidth] or is 0, and the profile is empty iff both curves are |
| GoodFrame.ProfileIgnoresOrder | Code/Step4Helpers.py:124-128 | the profile read off `head` is the same whatever order `np.argsort` leaves its rows in, as long as they are the two curves' rows |
| GoodFrame.ProfileWidths | Code/Step4Helpers.py:136-151 | a key in one curve only has width 0; a key in both has the gap between the first rows with that key when it is at most maxheadwidth, else 0 |
| GoodFrame.HeadNearEndScaled | Code/Step4Helpers.py:155 | the division form of the ratio test equals the multiplied form `p - 1 <= r·n or n - p <= r·n` |
| GoodFrame.GoodFrameTest | Code/Step4Helpers.py:122-162 | for any permitted sort: raises iff both curves are empty; otherwise `head` is a permutation of both curves' rows sorted on column 0 (ties in the sort's order), `data` is the width profile, which does not depend on that order, and the frame is good iff the first widest key is within headbodyratio·n of an end |
| GoodFrame.MirrorInRange | Code/Step4Helpers.py:155-189 | when the ratio test passes with headbodyratio below 1/3, `2p - 1` is not n |
| GoodFrame.NearEndThird | Code/Step4Helpers.py:155 | passing the ratio test with headbodyratio below 1/3 puts the widest key within a third of the profile length of one end |
| GoodFrame.GoodFrameIndexInRange | Code/Step4Helpers.py:154-189 | with headbodyratio below 1/3, a good frame never gives `2p - 1 == n` |
| Separate.Partition | Code/Step4Helpers.py:184-203 | the cut is increasing (the docstring's ori = 1: the flagellum runs toward greater keys and the head rows lie below x) iff `n - p >= p - 1`; the key is read at `2p - 1` (Python's last entry when p = 0) or at `2p - n`; it raises exactly when `2p - 1 == n` on the increasing side; the key is one of the profile's keys |
| Separate.LeadingMaximumWraps | Code/Step4Helpers.py:184-189 | when the widest entry is the first one, the cut points to increasing keys at the last profile key |
| Separate.PyIndex | Code/Step4Helpers.py:184-203 | Python's `data[i]` on n rows succeeds iff `-n <= i < n`, reads row `i + n` for a negative i, and otherwise raises the index error |
| Separate.SplitAt | Code/Step4Helpers.py:190-213 | raises iff x is missing from the head rows or from both curves; increasing: the head is the prefix before the first row keyed x and the flagellum the suffix of the curve from x; decreasing: the mirror; the lower curve is preferred |
| Separate.HeadSide | Code/Step4Helpers.py:190-206 | on sorted head rows, the kept head rows are all keyed below x (increasing) or at least x (decreasing) |
| Separate.TailSide | Code/Step4Helpers.py:194-213 | on a strictly ascending curve, the flagellum rows are all keyed at least x (increasing) or below x (decreasing) |
| Separate.SuffixFromKey | Code/Step4Helpers.py:196-199 | a suffix of a strictly ascending curve that starts at key x has every key at least x |
| Separate.PrefixBeforeKey | Code/Step4Helpers.py:210-213 | the prefix of a strictly ascending curve before the row keyed x has every key below x |
| Separate.OutlierRows | Code/Step4Helpers.py:221-223 | the rows moved out of the head are an order-preserving subsequence of exactly its outliers, and there are none iff no row is an outlier |
| Separate.MoveHeadOutliers | Code/Step4Helpers.py:215-225 | the head keeps its length, each outlier row becomes (0, 0) and every other row is unchanged, and the flagellum is extended by exactly the head's outlier rows |
| Separate.MoveKeepsSides | Code/Step4Helpers.py:215-224 | the outlier pass keeps the head on its side of x (a row is either kept or cleared to (0, 0)) and only extends the flagellum |
| Separate.MoveHeadOutliersAsWritten | Code/Step4Helpers.py:221-224 | as written, the loop raises a concatenate error, and only that error |
| Separate.AsWrittenFailsIffOutlier | Code/Step4Helpers.py:221-224 | as written, the loop raises iff the head has an outlier, and otherwise agrees with the corrected loop |
| Separate.AsWrittenRaisesOnOutlier | Code/Step4Helpers.py:223 | a concrete head with one outlier on which the code as written raises while the corrected loop moves the row |
| Separate.SeparateHeadTail | Code/Step4Helpers.py:182-227 | never raises the concatenate error (corrected loop), raises on an empty profile, succeeds exactly when the partition index is in range and the split's lookups of x succeed, and a result's orientation is the partition's |
| Separate.SeparatedSides | Code/Step4Helpers.py:190-225 | on sorted head rows and strictly ascending curves, the returned head and the flagellum's curve part lie on opposite sides of x, and the flagellum starts with that curve part |
| Separate.LookupsNeverMiss | Code/Step4Helpers.py:184-213 | on the profile and rows GoodFrameTest built from the same curves, the only possible error is the index one past the profile |
| Separate.GoodFrameSeparates | Code/Step4Helpers.py:184-213 | with headbodyratio below 1/3, a good frame always separates |
| Detect.SeparatesBelowThird | Code/Step4.py:119-128 | with headbodyratio below 1/3, separating a good frame succeeds |
| Detect.Classify | Code/Step4.py:96-138 | on given curves, the outcome is bad iff `GoodFrameTest` rejects them; a good outcome carries the head, flagellum and orientation `SeparateHeadTail` returns, flipped back when horizontal; the outcome is a success exactly when `GoodFrameTest` succeeds and, for a good frame, `SeparateHeadTail` succeeds too; the only errors are the empty profile (iff both curves are empty) and the mirrored index, and the latter never below ratio 1/3 |
| Detect.ProcessBody | Code/Step4.py:64-138 | the same relation as `Detect.ProcessFrame`, stated for the outlier-free body, including that it succeeds exactly when the frame is bad or is good and separates |
| Detect.ProcessFrame | Code/Step4.py:50-147 | one frame, for any permitted sort: it raises only the empty-profile error or the index error, the empty-profile error iff the outlier-free body is empty, and no error at all when headbodyratio is below 1/3 and the body is not empty. For any headbodyratio it succeeds exactly when `GoodFrameTest` succeeds and, for a good frame, `SeparateHeadTail` succeeds too. The frame is bad iff `GoodFrameTest` on the frame's curves rejects it. A good frame records the sorted body (a permutation of the body, sorted on the axis), horizontality iff the distinct-count test holds, and the head, flagellum and orientation that `SeparateHeadTail` returns, flipped back to (row, column) pairs when horizontal. The error list assumes the corrected outlier loop |
| Movie.ZeroFrame | Code/Step4.py:146 | a frame of the same shape with every pixel 0 |
| Movie.FrameOutcomes | Code/Step4.py:49-50 | frame k's outcome depends on frame k alone |
| Movie.Collect | Code/Step4.py:119-147 | stops with the first failing frame's error, else has one list entry per frame, the good frames' indices ascending and exact, each entry is what its frame yielded, bad frames are zeroed and good frames are kept |
| Movie.DetectingSpermBody | Code/Step4.py:26-161 | the whole step raises iff some frame raises, with the first such error; otherwise the record has one entry per frame, `frames` lists exactly the good frames in order, `'empty'` stands at every bad frame, which is zeroed in the returned movie, and dt, scale and size pass through |

## Left out

- The SimpleITK conversions at `Code/Step4.py:32-33` and `Code/Step4.py:166` and the `.mha` file write at `Code/Step4.py:167-169` are file I/O. The movie is given as a sequence of frames, and the frame size is a parameter.
- The progress `print` at `Code/Step4.py:44` is console output.
- Floating point is not modelled. Pixel coordinates are integers, the means and variances are exact rationals, `np.std` is the exact population standard deviation in squared form, and the ratio test is exact.
- Outliers.RemoveOutliers2D does not model the NaN path of an empty input array; it states the outcome instead, which is an empty result.
- The sort is a parameter. The pipeline (`Detect.BoundaryCurves`, `GoodFrame.GoodFrameTest`, `Detect.ProcessFrame`, `Movie.DetectingSpermBody`) holds for every sort that satisfies `Sorting.SortsOn`. One `sort` stands for all three `np.argsort` calls (`Code/Step4.py:76`, `Code/Step4.py:84`, `Code/Step4Helpers.py:126`), so the recorded head and flagellum carry their rows in that sort's tie order. `np.argsort`'s actual tie order (introsort by default) is not modelled. `Sorting.SortOn` is one permitted instance, the stable one.
- Detect.StableCurvesBracketBody: the bracketing of the body by the curves is proved for the stable sort only, because with `np.argsort`'s unstable default it can fail (see Findings).
- The `body` parameter of `GoodFrameTest` and `SeparateHeadTail` is never read by the source. It is dropped.
- The dead assignments `lowcurve`/`uppcurve` at `Code/Step4.py:106-107` are not modelled.
- The discarded expression at `Code/Step4Helpers.py:225` is not modelled. Its result is not assigned, so the head keeps its (0, 0) rows.
- Separate.SeparateHeadTail states its success condition in its own ensures, but its shape through `Separate.SeparatedSides`, `Separate.SplitAt` and `Separate.MoveHeadOutliers` rather than in its own ensures.
- Separate.MoveHeadOutliers: the head mean over an empty head (NaN in numpy) is taken as 0. The loop then has no rows, so this has no effect.
- Steps 1-3, Step 5 and the `SpermSegReg.py` driver are outside this step and are not part of this model.

## Findings

| source | as written | input that shows it | evidently intended | confidence | as-written member | corrected member |
|---|---|---|---|---|---|---|
| Code/Step4Helpers.py:223 | `np.concatenate((tail, head[ii,:]), axis=0)` joins the 2-D flagellum with a 1-D head row, which numpy rejects because the dimensions differ, so the first head outlier aborts the run | head rows (2,2), (2,2), (2,8) with flagellum (5,5) and threshold2 = 3: the row (2,8) lies outside the open mean ± 3 box and the call raises | append the outlier row to the flagellum, which gives head (2,2), (2,2), (0,0) and flagellum (5,5), (2,8) | high, not executed | Separate.MoveHeadOutliersAsWritten, Separate.AsWrittenRaisesOnOutlier | Separate.MoveHeadOutliers |
| Code/Step4.py:76-84 | `body[np.argsort(body[:, 0])]` uses NumPy's default sort, which does not keep ties in input order, so within one key the rows need not ascend on the other column as `SimplifyY`'s docstring (`Code/Step4Helpers.py:75-77`) requires, and `SimplifyY(body, 1)` can return a pixel that is not the smallest at its key | the vertical body (0,0), (0,1), (1,0), (2,0): a permitted sort returns (0,1), (0,0), (1,0), (2,0), and the lower curve at row 0 is then (0,1) although (0,0) is in the body. This shows the latitude `np.argsort` documents; on four rows NumPy's quicksort falls back to insertion sort and keeps ties, so in practice a body of more than 16 pixels is needed to see it | a stable sort (`np.argsort(..., kind='stable')`), which keeps the row-major order of the pixels within each key, so that the curves are the per-key minimum and maximum | medium, not executed | Detect.ArgsortTiesBreakEnvelope | Detect.StableCurvesBracketBody, using Sorting.SortOnKeyedAscending |

=== FILE: detect.dfy ===
/**
 * `DetectingSpermBody` (Step4.py): separate every frame of a movie into head
 * and flagellum, blank the frames that fail the test, and collect the record.
 */
module Detect {
  import opened Results
  import opened Points
  import opened Distinct
  import opened Sorting
  import opened Outliers
  import opened Envelope
  import opened GoodFrame
  import opened Separate
  import opened Mask

  /** threshold1, maxheadwidth, headbodyratio and threshold2. */
  datatype Params = Params(threshold1: real, maxHeadWidth: int, headBodyRatio: real, threshold2: real)

  /**
   * Lines 64-74 and 80-82: the body swims horizontally when it spans at
   * least as many distinct columns as distinct rows.
   */
  function Horizontal(body: seq<Point>): (h: bool)
    ensures h <==> |Elems(Column(body, 1))| >= |Elems(Column(body, 0))|
  {
    UniqueCount(Column(body, 1));
    UniqueCount(Column(body, 0));
    |Unique(Column(body, 1))| >= |Unique(Column(body, 0))|
  }

  /** The column that is the independent axis. */
  function Axis(horizontal: bool): Col {
    if horizontal then 1 else 0
  }

  /** Lines 98-125: `np.fliplr` in the horizontal case, so that column 0 is the independent axis. */
  function Oriented(s: seq<Point>, horizontal: bool): seq<Point> {
    if horizontal then Flip(s) else s
  }

  /** The sorted body and its two boundary curves, in (row, column) pairs. */
  datatype Curves = Curves(body: seq<Point>, lower: seq<Point>, upper: seq<Point>)

  /**
   * Lines 72-88: sort the body on the independent axis with `sort` (the
   * model's stand-in for `np.argsort`) and extract both curves along it. Both
   * branches hand the helpers the same thing: the envelopes of the oriented
   * sorted body keyed on column 0, which is the independent axis.
   */
  function BoundaryCurves(body: seq<Point>, horizontal: bool, sort: (seq<Point>, Col) -> seq<Point>): (r: Curves)
    requires SortsOn(sort)
    ensures r.body == sort(body, Axis(horizontal))
    ensures multiset(r.body) == multiset(body) && SortedOn(r.body, Axis(horizontal))
    ensures Column(Oriented(r.body, horizontal), 0) == Column(r.body, Axis(horizontal))
    ensures Oriented(r.lower, horizontal) == SimplifyY(Oriented(r.body, horizontal), true)
    ensures Oriented(r.upper, horizontal) == SimplifyY(Oriented(r.body, horizontal), false)
  {
    var b := sort(body, Axis(horizontal));
    if horizontal then
      SimplifyXIsFlippedSimplifyY(b, true);
      SimplifyXIsFlippedSimplifyY(b, false);
      Curves(b, SimplifyX(b, true), SimplifyX(b, false))
    else
      Curves(b, SimplifyY(b, true), SimplifyY(b, false))
  }

  /** The outcome of one frame: its parts when good, nothing when bad. */
  datatype Outcome =
    | Good(body: seq<Point>, head: seq<Point>, flagellum: seq<Point>, horizontal: bool, increasing: bool)
    | Bad

  /**
   * The outlier-free body of a frame (lines 58-62): exactly the pixels
   * labelled 1 that lie in the threshold1 box of all such pixels, in
   * row-major order.
   */
  function FrameBody(a: Frame, prm: Params): (r: seq<Point>)
    ensures forall q :: q in r <==> Foreground(a, q) && Inside(q, StatBox(Pixels(a), prm.threshold1))
    ensures RowMajor(r)
  {
    var pixels := Pixels(a);
    var r := RemoveOutliers2D(pixels, prm.threshold1);
    SubsequenceKeepsOrder(r, pixels, (p, q) => RowMajorLess(p, q));
    assert forall q :: Inside(q, StatBox(pixels, prm.threshold1)) && q in pixels ==> q in r by {
      forall q | Inside(q, StatBox(pixels, prm.threshold1)) && q in pixels ensures q in r {
        assert multiset(r)[q] == multiset(pixels)[q];
      }
    }
    r
  }

  /** The curves GoodFrameTest receives for a body, keyed on column 0. */
  function BodyCurves(body: seq<Point>, sort: (seq<Point>, Col) -> seq<Point>): (seq<Point>, seq<Point>)
    requires SortsOn(sort)
  {
    var h := Horizontal(body);
    var cv := BoundaryCurves(body, h, sort);
    (Oriented(cv.lower, h), Oriented(cv.upper, h))
  }

  /** The curves GoodFrameTest receives for frame a. */
  function FrameCurves(a: Frame, prm: Params, sort: (seq<Point>, Col) -> seq<Point>): (seq<Point>, seq<Point>)
    requires SortsOn(sort)
  {
    BodyCurves(FrameBody(a, prm), sort)
  }

  /**
   * How the outcome r of one frame relates to the curves lower and upper it
   * hands the helpers (lines 96-138). It raises only on empty curves
   * (np.argmax of an empty profile) or on a mirrored index one past the
   * profile, and the latter never with headbodyratio below 1/3. The frame is
   * bad exactly when GoodFrameTest rejects it; a good frame records the
   * sorted body, its orientation, and the head and flagellum SeparateHeadTail
   * returns, swapped back to (row, column) pairs when horizontal (lines
   * 121-125), with the direction it found (line 138).
   */
  predicate Classifies(r: Result<Outcome>, sorted: seq<Point>, horizontal: bool,
                       lower: seq<Point>, upper: seq<Point>, prm: Params,
                       sort: (seq<Point>, Col) -> seq<Point>)
    requires SortsOn(sort)
  {
    var t := GoodFrameTest(lower, upper, prm.maxHeadWidth, prm.headBodyRatio, sort);
    && (r.Failure? ==> r.error == EmptyArgMax || r.error == IndexOutOfRange)
    && (r == Failure(EmptyArgMax) <==> |lower| + |upper| == 0)
    && (prm.headBodyRatio < 1.0 / 3.0 && r.Failure? ==> |lower| + |upper| == 0)
    && (r.Success? <==>
          t.Success? && (!t.value.good ||
            SeparateHeadTail(lower, upper, t.value.data, t.value.head, prm.threshold2).Success?))
    && (r.Success? && r.value.Bad? <==> t.Success? && !t.value.good)
    && (r.Success? && r.value.Good? ==>
          && t.Success? && t.value.good
          && r.value.body == sorted && r.value.horizontal == horizontal
          && var s := SeparateHeadTail(lower, upper, t.value.data, t.value.head, prm.threshold2);
             && s.Success?
             && r.value.head == Oriented(s.value.head, horizontal)
             && r.value.flagellum == Oriented(s.value.tail, horizontal)
             && r.value.increasing == s.value.increasing)
  }

  /**
   * Lines 96-138 on the curves of one frame: test the frame, and separate a
   * good one; no lookup ever misses and the corrected outlier pass never
   * raises.
   */
  function Classify(sorted: seq<Point>, horizontal: bool, lower: seq<Point>, upper: seq<Point>, prm: Params,
                    sort: (seq<Point>, Col) -> seq<Point>): (r: Result<Outcome>)
    requires SortsOn(sort)
    ensures Classifies(r, sorted, horizontal, lower, upper, prm, sort)
  {
    var test :- GoodFrameTest(lower, upper, prm.maxHeadWidth, prm.headBodyRatio, sort);
    if !test.good then Success(Bad)
    else
      LookupsNeverMiss(lower, upper, prm.maxHeadWidth, prm.headBodyRatio, prm.threshold2, sort);
      SeparatesBelowThird(lower, upper, prm, sort);
      var split :- SeparateHeadTail(lower, upper, test.data, test.head, prm.threshold2);
      Success(Good(sorted, Oriented(split.head, horizontal), Oriented(split.tail, horizontal),
                   horizontal, split.increasing))
  }

  /**
   * Lines 72-138 on the outlier-free body of one frame. An empty body aborts
   * the run, and so may a good frame whose mirrored index is one past the
   * profile, never with headbodyratio below 1/3. The frame is bad exactly
   * when GoodFrameTest rejects its curves; a good frame records its
   * horizontality, its body sorted on the independent axis, and the head,
   * flagellum and orientation SeparateHeadTail returns, in (row, column)
   * pairs.
   */
  function ProcessBody(body: seq<Point>, prm: Params, sort: (seq<Point>, Col) -> seq<Point>): (r: Result<Outcome>)
    requires SortsOn(sort)
    ensures r == Failure(EmptyArgMax) <==> body == []
    ensures r.Success? && r.value.Good? ==>
      && (r.value.horizontal <==> |Elems(Column(body, 1))| >= |Elems(Column(body, 0))|)
      && multiset(r.value.body) == multiset(body)
      && SortedOn(r.value.body, Axis(r.value.horizontal))
    ensures var h := Horizontal(body);
      var cs := BodyCurves(body, sort);
      Classifies(r, sort(body, Axis(h)), h, cs.0, cs.1, prm, sort)
  {
    var horizontal := Horizontal(body);
    var cv := BoundaryCurves(body, horizontal, sort);
    BodyCurvesOfSortedBody(body, sort);
    Classify(cv.body, horizontal, Oriented(cv.lower, horizontal), Oriented(cv.upper, horizontal), prm, sort)
  }

  /** What Classify is handed for a body: its curves, empty exactly when the body is. */
  lemma BodyCurvesOfSortedBody(body: seq<Point>, sort: (seq<Point>, Col) -> seq<Point>)
    requires SortsOn(sort)
    ensures var h := Horizontal(body);
      var cv := BoundaryCurves(body, h, sort);
      && BodyCurves(body, sort) == (Oriented(cv.lower, h), Oriented(cv.upper, h))
      && (|Oriented(cv.lower, h)| + |Oriented(cv.upper, h)| == 0 <==> body == [])
      && multiset(cv.body) == multiset(body)
      && SortedOn(cv.body, Axis(h))
  {
    CurvesEmptyIffBodyEmpty(body, Horizontal(body), sort);
  }

  /**
   * One pass of the loop body, lines 50-147, on frame a: the steps above on
   * the frame's outlier-free body.
   */
  function ProcessFrame(a: Frame, prm: Params, sort: (seq<Point>, Col) -> seq<Point>): (r: Result<Outcome>)
    requires SortsOn(sort)
    ensures r == Failure(EmptyArgMax) <==> FrameBody(a, prm) == []
    ensures r.Success? && r.value.Good? ==>
      var body := FrameBody(a, prm);
      && (r.value.horizontal <==> |Elems(Column(body, 1))| >= |Elems(Column(body, 0))|)
      && multiset(r.value.body) == multiset(body)
      && SortedOn(r.value.body, Axis(r.value.horizontal))
    ensures var body := FrameBody(a, prm);
      var h := Horizontal(body);
      var cs := FrameCurves(a, prm, sort);
      Classifies(r, sort(body, Axis(h)), h, cs.0, cs.1, prm, sort)
  {
    ProcessBody(FrameBody(a, prm), prm, sort)
  }

  lemma SeparatesBelowThird(lower: seq<Point>, upper: seq<Point>, prm: Params, sort: (seq<Point>, Col) -> seq<Point>)
    requires SortsOn(sort)
    requires GoodFrameTest(lower, upper, prm.maxHeadWidth, prm.headBodyRatio, sort).Success?
    requires GoodFrameTest(lower, upper, prm.maxHeadWidth, prm.headBodyRatio, sort).value.good
    ensures var t := GoodFrameTest(lower, upper, prm.maxHeadWidth, prm.headBodyRatio, sort).value;
      prm.headBodyRatio < 1.0 / 3.0 ==> SeparateHeadTail(lower, upper, t.data, t.head, prm.threshold2).Success?
  {
    if prm.headBodyRatio < 1.0 / 3.0 {
      GoodFrameSeparates(lower, upper, prm.maxHeadWidth, prm.headBodyRatio, prm.threshold2, sort);
    }
  }

  /** The two curves are both empty exactly when the body is. */
  lemma CurvesEmptyIffBodyEmpty(body: seq<Point>, horizontal: bool, sort: (seq<Point>, Col) -> seq<Point>)
    requires SortsOn(sort)
    ensures var cv := BoundaryCurves(body, horizontal, sort);
      |Oriented(cv.lower, horizontal)| + |Oriented(cv.upper, horizontal)| == 0 <==> body == []
  {
    var cv := BoundaryCurves(body, horizontal, sort);
    var ob := Oriented(cv.body, horizontal);
    var lo := SimplifyY(ob, true);
    assert |lo| == |Unique(Column(ob, 0))|;
    if |body| > 0 {
      assert |cv.body| > 0 by {
        assert body[0] in multiset(body);
      }
      assert Column(ob, 0)[0] in Column(ob, 0);
    }
  }

  /**
   * With the stable sort, the curves the helpers see are the per-key minimum
   * and maximum: on every frame, every pixel of the oriented body lies
   * between the lower and the upper curve at its independent value.
   */
  lemma StableCurvesBracketBody(a: Frame, prm: Params)
    ensures var body := FrameBody(a, prm);
      var h := Horizontal(body);
      var ob := Oriented(SortOn(body, Axis(h)), h);
      Brackets(ob, SimplifyY(ob, true), SimplifyY(ob, false))
  {
    var body := FrameBody(a, prm);
    var h := Horizontal(body);
    StableBodyKeyed(body, h);
    EnvelopeBrackets(Oriented(SortOn(body, Axis(h)), h));
  }

  /** A row-major body sorted stably on its axis and oriented is keyed-ascending on column 0. */
  lemma StableBodyKeyed(body: seq<Point>, h: bool)
    requires RowMajor(body)
    ensures KeyedAscending(Oriented(SortOn(body, Axis(h)), h), 0)
  {
    RowMajorKeyed(body, Axis(h));
    SortOnKeyedAscending(body, Axis(h));
    if h {
      FlipKeyedAscending(SortOn(body, Axis(h)));
    }
  }

  lemma FlipKeyedAscending(s: seq<Point>)
    requires KeyedAscending(s, 1)
    ensures KeyedAscending(Flip(s), 0)
  {
  }

  /** A vertical body whose row 0 holds two pixels: (0, 0), (0, 1), (1, 0), (2, 0). */
  function TieBody(): seq<Point> {
    [(0, 0), (0, 1), (1, 0), (2, 0)]
  }

  /** A sort `np.argsort` may perform: it leaves the tie of row 0 in reverse on TieBody, and sorts stably elsewhere. */
  function SwapFirstTie(s: seq<Point>, c: Col): seq<Point> {
    if s == TieBody() && c == 0 then [(0, 1), (0, 0), (1, 0), (2, 0)] else SortOn(s, c)
  }

  /**
   * Lines 76 and 84 as written: with an unstable sort, the lower curve need
   * not be the minimum. On TieBody, a sort that `np.argsort` may perform puts
   * (0, 1) first among the pixels of row 0, and `SimplifyY(body, 1)` then
   * takes (0, 1) as the lower curve at row 0, above the body pixel (0, 0).
   * StableCurvesBracketBody shows that the stable sort rules this out.
   */
  lemma ArgsortTiesBreakEnvelope()
    ensures SortsOn(SwapFirstTie)
    ensures !Horizontal(TieBody())
    ensures var cv := BoundaryCurves(TieBody(), false, SwapFirstTie);
      |cv.lower| > 0 && cv.lower[0] == (0, 1) && (0, 0) in cv.body
  {
    SwapFirstTieSorts();
    TieBodyVertical();
    SwappedCurve();
  }

  /** SwapFirstTie is a permutation sorted on the key for every input. */
  lemma SwapFirstTieSorts()
    ensures SortsOn(SwapFirstTie)
  {
    SortOnSorts();
    SwappedTieSorted();
  }

  lemma SwappedTieSorted()
    ensures multiset(SwapFirstTie(TieBody(), 0)) == multiset(TieBody())
    ensures SortedOn(SwapFirstTie(TieBody(), 0), 0)
  {
    var t: seq<Point> := [(0, 1), (0, 0), (1, 0), (2, 0)];
    assert SwapFirstTie(TieBody(), 0) == t;
    assert multiset(t) == multiset{(0, 1), (0, 0), (1, 0), (2, 0)};
    assert multiset(TieBody()) == multiset{(0, 0), (0, 1), (1, 0), (2, 0)};
    KeysSorted(t, [0, 0, 1, 2]);
  }

  /** Rows whose keys are 0, 0, 1, 2 are sorted on the key. */
  lemma KeysSorted(t: seq<Point>, keys: seq<int>)
    requires keys == [0, 0, 1, 2] && Column(t, 0) == keys
    ensures SortedOn(t, 0)
  {
    forall i, j | 0 <= i < j < |t| ensures At(t[i], 0) <= At(t[j], 0) {
      assert At(t[i], 0) == keys[i] && At(t[j], 0) == keys[j];
    }
  }

  /** TieBody spans three distinct rows and two distinct columns, so it is vertical. */
  lemma TieBodyVertical()
    ensures !Horizontal(TieBody())
  {
    assert Column(TieBody(), 0) == [0, 0, 1, 2];
    assert Column(TieBody(), 1) == [0, 1, 0, 0];
    assert Elems([0, 1, 0, 0]) == {0, 1};
    assert Elems([0, 0, 1, 2]) == {0, 1, 2};
  }

  lemma SwappedCurve()
    requires SortsOn(SwapFirstTie)
    ensures var cv := BoundaryCurves(TieBody(), false, SwapFirstTie);
      |cv.lower| > 0 && cv.lower[0] == (0, 1) && (0, 0) in cv.body
  {
    VerticalCurves(TieBody(), SwapFirstTie);
    SwappedTieCurve();
  }

  /** For a vertical body the curves are the envelopes of the sorted body itself. */
  lemma VerticalCurves(body: seq<Point>, sort: (seq<Point>, Col) -> seq<Point>)
    requires SortsOn(sort)
    ensures var cv := BoundaryCurves(body, false, sort);
      cv.body == sort(body, 0) && cv.lower == SimplifyY(sort(body, 0), true)
  {
  }

  lemma SwappedTieCurve()
    ensures var swapped := SwapFirstTie(TieBody(), 0);
      |SimplifyY(swapped, true)| > 0 && SimplifyY(swapped, true)[0] == (0, 1) && (0, 0) in swapped
  {
    var swapped := SwapFirstTie(TieBody(), 0);
    assert Column(swapped, 0) == [0, 0, 1, 2];
    TieLowerCurve(swapped, (0, 1));
    assert swapped[1] == (0, 0);
  }

  /** On rows keyed 0, 0, 1, 2, the lower curve starts with the first row. */
  lemma TieLowerCurve(b: seq<Point>, first: Point)
    requires |b| == 4 && b[0] == first && Column(b, 0) == [0, 0, 1, 2]
    ensures |SimplifyY(b, true)| > 0 && SimplifyY(b, true)[0] == first
  {
    assert Unique([2]) == [2];
    assert Unique([1, 2]) == [1, 2];
    assert Unique([0, 1, 2]) == [0, 1, 2];
    assert Unique([0, 0, 1, 2]) == [0, 1, 2];
    assert FirstIndex(Column(b, 0), 0) == 0;
  }
}

=== FILE: distinct.dfy ===
/** `np.unique` on a column of integers: its distinct values in ascending order. */
module Distinct {
  import opened Points

  /** The set of values a column holds. */
  function Elems(s: seq<int>): set<int> {
    set v | v in s
  }

  /** Places x into an ascending sequence of distinct values, keeping it ascending and distinct. */
  function Insert(x: int, s: seq<int>): (r: seq<int>)
    requires StrictlyIncreasing(s)
    ensures StrictlyIncreasing(r)
    ensures forall v :: v in r <==> v == x || v in s
    decreases |s|
  {
    if |s| == 0 then [x]
    else if x < s[0] then [x] + s
    else if x == s[0] then s
    else
      var rest := Insert(x, s[1..]);
      assert forall v :: v in rest ==> s[0] < v by {
        forall v | v in rest ensures s[0] < v {
          if v != x {
            var k :| 1 <= k < |s| && s[k] == v;
          }
        }
      }
      assert forall j :: 0 <= j < |rest| ==> s[0] < rest[j] by {
        forall j | 0 <= j < |rest| ensures s[0] < rest[j] {
          assert rest[j] in rest;
        }
      }
      [s[0]] + rest
  }

  /** `np.unique(s)`: every value of s exactly once, in ascending order. */
  function Unique(s: seq<int>): (r: seq<int>)
    ensures StrictlyIncreasing(r)
    ensures forall v :: v in r <==> v in s
  {
    if |s| == 0 then [] else Insert(s[0], Unique(s[1..]))
  }

  /** An ascending sequence of distinct values is determined by the values it holds. */
  lemma {:induction false} IncreasingDeterminedByElems(a: seq<int>, b: seq<int>)
    requires StrictlyIncreasing(a) && StrictlyIncreasing(b)
    requires forall v :: v in a <==> v in b
    ensures a == b
    decreases |a|
  {
    assert |b| > 0 ==> b[0] in b;
    if |a| > 0 {
      assert a[0] in a;
      assert a[0] in b;
      assert b[0] in a;
      assert a[0] == b[0] by {
        var i :| 0 <= i < |b| && b[i] == a[0];
        var j :| 0 <= j < |a| && a[j] == b[0];
        assert b[0] <= b[i];
        assert a[0] <= a[j];
      }
      forall v ensures v in a[1..] <==> v in b[1..] {
        if v in a[1..] {
          var i :| 1 <= i < |a| && a[i] == v;
          assert v in b;
          assert v != b[0];
        }
        if v in b[1..] {
          var i :| 1 <= i < |b| && b[i] == v;
          assert v in a;
          assert v != a[0];
        }
      }
      IncreasingDeterminedByElems(a[1..], b[1..]);
      assert a == [a[0]] + a[1..];
      assert b == [b[0]] + b[1..];
    } else {
      if |b| > 0 {
        assert false;
      }
    }
  }

  /** np.unique sees only which values occur, not their order or multiplicity. */
  lemma UniqueDependsOnElems(s: seq<int>, t: seq<int>)
    requires forall v :: v in s <==> v in t
    ensures Unique(s) == Unique(t)
  {
    IncreasingDeterminedByElems(Unique(s), Unique(t));
  }

  /** An ascending sequence of distinct values holds as many values as it is long. */
  lemma {:induction false} IncreasingCount(s: seq<int>)
    requires StrictlyIncreasing(s)
    ensures |Elems(s)| == |s|
    decreases |s|
  {
    if |s| > 0 {
      IncreasingCount(s[1..]);
      assert Elems(s) == {s[0]} + Elems(s[1..]);
      assert s[0] !in Elems(s[1..]);
    }
  }

  /** `len(np.unique(s))` counts the distinct values of s. */
  lemma UniqueCount(s: seq<int>)
    ensures |Unique(s)| == |Elems(s)|
  {
    IncreasingCount(Unique(s));
    assert Elems(Unique(s)) == Elems(s);
  }
}

=== FILE: envelope.dfy ===
/**
 * `SimplifyY` and `SimplifyX`: reduce a pixel set to one boundary curve,
 * one row per distinct value of the independent column.
 */
module Envelope {
  import opened Points
  import opened Distinct

  /** The row the source reads for key v of column c: the first (`np.amin`) or last (`np.amax`) row with that key. */
  function Pick(a: seq<Point>, c: Col, v: int, lower: bool): Point
    requires v in Column(a, c)
  {
    if lower then a[FirstIndex(Column(a, c), v)] else a[LastIndex(Column(a, c), v)]
  }

  /**
   * The loop both helpers run, keyed on column c: one row per distinct value
   * of column c in ascending order, namely the first (b = 1, `lower`) or the
   * last (b = 0) row of A carrying that value.
   */
  function KeyedCurve(a: seq<Point>, c: Col, lower: bool): (r: seq<Point>)
    ensures Column(r, c) == Unique(Column(a, c))
    ensures forall i :: 0 <= i < |r| ==> At(r[i], c) in Column(a, c)
    ensures lower ==> forall i :: 0 <= i < |r| ==> r[i] == a[FirstIndex(Column(a, c), At(r[i], c))]
    ensures !lower ==> forall i :: 0 <= i < |r| ==> r[i] == a[LastIndex(Column(a, c), At(r[i], c))]
  {
    var keys := Unique(Column(a, c));
    assert forall i :: 0 <= i < |keys| ==> keys[i] in Column(a, c) by {
      forall i | 0 <= i < |keys| ensures keys[i] in Column(a, c) {
        assert keys[i] in keys;
      }
    }
    var r := seq(|keys|, i requires 0 <= i < |keys| => Pick(a, c, keys[i], lower));
    assert forall i :: 0 <= i < |r| ==> At(r[i], c) == keys[i] by {
      forall i | 0 <= i < |r| ensures At(r[i], c) == keys[i] {
        PickHasKey(a, c, keys[i], lower);
      }
    }
    assert Column(r, c) == keys;
    r
  }

  lemma PickHasKey(a: seq<Point>, c: Col, v: int, lower: bool)
    requires v in Column(a, c)
    ensures At(Pick(a, c, v, lower), c) == v
  {
    var k := if lower then FirstIndex(Column(a, c), v) else LastIndex(Column(a, c), v);
    assert Column(a, c)[k] == v;
  }

  /**
   * `SimplifyY(A, b)`, keyed on column 0: its column 0 is the distinct values
   * of A's column 0 in ascending order, and each row is the first (b = 1,
   * `lower`) or the last (b = 0) row of A carrying that key.
   */
  function SimplifyY(a: seq<Point>, lower: bool): (r: seq<Point>)
    ensures Column(r, 0) == Unique(Column(a, 0))
    ensures StrictlyIncreasing(Column(r, 0))
    ensures forall i :: 0 <= i < |r| ==> r[i].0 in Column(a, 0)
    ensures lower ==> forall i :: 0 <= i < |r| ==> r[i] == a[FirstIndex(Column(a, 0), r[i].0)]
    ensures !lower ==> forall i :: 0 <= i < |r| ==> r[i] == a[LastIndex(Column(a, 0), r[i].0)]
  {
    KeyedCurve(a, 0, lower)
  }

  /**
   * `SimplifyX(A, b)`, keyed on column 1: its column 1 is the distinct values
   * of A's column 1 in ascending order, and each row is the first (b = 1,
   * `lower`) or the last (b = 0) row of A carrying that key.
   */
  function SimplifyX(a: seq<Point>, lower: bool): (r: seq<Point>)
    ensures Column(r, 1) == Unique(Column(a, 1))
    ensures StrictlyIncreasing(Column(r, 1))
    ensures forall i :: 0 <= i < |r| ==> r[i].1 in Column(a, 1)
    ensures lower ==> forall i :: 0 <= i < |r| ==> r[i] == a[FirstIndex(Column(a, 1), r[i].1)]
    ensures !lower ==> forall i :: 0 <= i < |r| ==> r[i] == a[LastIndex(Column(a, 1), r[i].1)]
  {
    KeyedCurve(a, 1, lower)
  }

  /**
   * The two helpers are mirror images: keying on column 1 is keying on
   * column 0 of the array with its columns exchanged (`np.fliplr`).
   */
  lemma SimplifyXIsFlippedSimplifyY(a: seq<Point>, lower: bool)
    ensures Flip(SimplifyX(a, lower)) == SimplifyY(Flip(a), lower)
  {
    var x, y := Flip(SimplifyX(a, lower)), SimplifyY(Flip(a), lower);
    assert Column(Flip(a), 0) == Column(a, 1);
    assert |x| == |y| by {
      assert |Column(x, 0)| == |Column(y, 0)|;
    }
    forall i | 0 <= i < |x| ensures x[i] == y[i] {
      var v := Column(y, 0)[i];
      assert Column(x, 0)[i] == v;
      assert v in Column(a, 1) by {
        assert Column(y, 0)[i] in Column(y, 0);
      }
    }
  }

  /**
   * The curves lo and up share their keys row by row, and every row of a lies
   * between lo and up at its key.
   */
  predicate Brackets(a: seq<Point>, lo: seq<Point>, up: seq<Point>) {
    && |lo| == |up|
    && (forall i :: 0 <= i < |lo| ==> lo[i].0 == up[i].0)
    && forall i, j :: 0 <= i < |lo| && 0 <= j < |a| && a[j].0 == lo[i].0 ==> lo[i].1 <= a[j].1 <= up[i].1
  }

  /**
   * Under the documented input order (ascending on column 0, and on column 1
   * within each key), the two curves are the per-key minimum and maximum:
   * every row of A lies between the lower and the upper curve at its key.
   */
  lemma EnvelopeBrackets(a: seq<Point>)
    requires KeyedAscending(a, 0)
    ensures Brackets(a, SimplifyY(a, true), SimplifyY(a, false))
  {
    var lo, up := SimplifyY(a, true), SimplifyY(a, false);
    CurvesShareKeys(a);
    forall i, j | 0 <= i < |lo| && 0 <= j < |a| && a[j].0 == lo[i].0
      ensures lo[i].1 <= a[j].1 <= up[i].1
    {
      FirstRowIsLowest(a, lo[i].0, j);
      LastRowIsHighest(a, up[i].0, j);
    }
  }

  /** The lower and the upper curve have the same keys, row by row. */
  lemma CurvesShareKeys(a: seq<Point>)
    ensures |SimplifyY(a, true)| == |SimplifyY(a, false)|
    ensures forall i :: 0 <= i < |SimplifyY(a, true)| ==> SimplifyY(a, true)[i].0 == SimplifyY(a, false)[i].0
  {
    var lo, up := SimplifyY(a, true), SimplifyY(a, false);
    assert Column(lo, 0) == Column(up, 0);
    assert |lo| == |Column(lo, 0)|;
    forall i | 0 <= i < |lo| ensures lo[i].0 == up[i].0 {
      assert Column(lo, 0)[i] == Column(up, 0)[i];
    }
  }

  /** In keyed-ascending rows, the first row with key v has the smallest column 1 among them. */
  lemma FirstRowIsLowest(a: seq<Point>, v: int, j: int)
    requires KeyedAscending(a, 0)
    requires 0 <= j < |a| && a[j].0 == v
    ensures v in Column(a, 0) && a[FirstIndex(Column(a, 0), v)].1 <= a[j].1
  {
    assert Column(a, 0)[j] == v;
  }

  /** In keyed-ascending rows, the last row with key v has the largest column 1 among them. */
  lemma LastRowIsHighest(a: seq<Point>, v: int, j: int)
    requires KeyedAscending(a, 0)
    requires 0 <= j < |a| && a[j].0 == v
    ensures v in Column(a, 0) && a[j].1 <= a[LastIndex(Column(a, 0), v)].1
  {
    assert Column(a, 0)[j] == v;
  }
}

=== FILE: goodframe.dfy ===
/**
 * `GoodFrameTest`: the width profile of a body between its two boundary curves,
 * and the decision whether the widest place sits near one end of the body.
 */
module GoodFrame {
  import opened Results
  import opened Points
  import opened Distinct
  import opened Sorting

  function Abs(x: int): int {
    if x < 0 then -x else x
  }

  /**
   * `data[ii, 1]` for key v (lines 137-149): the gap between the curves'
   * first rows with key v when both curves have one and the gap does not
   * exceed maxWidth; 0 otherwise (a wider gap counts 0, not maxWidth).
   */
  function Width(lower: seq<Point>, upper: seq<Point>, v: int, maxWidth: int): int {
    if v in Column(lower, 0) && v in Column(upper, 0) then
      var d := Abs(lower[FirstIndex(Column(lower, 0), v)].1 - upper[FirstIndex(Column(upper, 0), v)].1);
      if d <= maxWidth then d else 0
    else 0
  }

  /** The width profile: one row (key, width) per key. */
  function Profile(lower: seq<Point>, upper: seq<Point>, keys: seq<int>, maxWidth: int): seq<Point> {
    seq(|keys|, i requires 0 <= i < |keys| => (keys[i], Width(lower, upper, keys[i], maxWidth)))
  }

  /** `np.argmax`: the first position of the largest value. */
  function ArgMax(s: seq<int>): (p: nat)
    requires |s| > 0
    ensures p < |s|
    ensures forall i :: 0 <= i < |s| ==> s[i] <= s[p]
    ensures forall i :: 0 <= i < p ==> s[i] < s[p]
  {
    if |s| == 1 then 0
    else
      var q := ArgMax(s[..|s| - 1]);
      if s[|s| - 1] > s[q] then |s| - 1 else q
  }

  /** The ratio test of line 155, in the source's division form. */
  predicate HeadNearEnd(p: int, n: int, ratio: real)
    requires n > 0
  {
    (p - 1) as real / n as real <= ratio || (n - p) as real / n as real <= ratio
  }

  /** The widest key is at most ratio·n entries from either end of an n-entry profile. */
  predicate NearEnd(p: int, n: int, ratio: real) {
    (p - 1) as real <= ratio * n as real || (n - p) as real <= ratio * n as real
  }

  lemma HeadNearEndScaled(p: int, n: int, ratio: real)
    requires n > 0
    ensures HeadNearEnd(p, n, ratio) <==> NearEnd(p, n, ratio)
  {
  }

  /**
   * Lines 128-151: the profile over the union of the two curves' keys, one
   * row per key in ascending order. `np.unique` sorts, so the profile does not
   * depend on the row order of the curves (`ProfileIgnoresOrder`).
   */
  function WidthProfile(lower: seq<Point>, upper: seq<Point>, maxWidth: int): (data: seq<Point>)
    ensures StrictlyIncreasing(Column(data, 0))
    ensures forall v :: v in Column(data, 0) <==> v in Column(lower, 0) || v in Column(upper, 0)
    ensures forall i :: 0 <= i < |data| ==> 0 <= data[i].1 && (data[i].1 <= maxWidth || data[i].1 == 0)
    ensures |data| == 0 <==> |lower| + |upper| == 0
  {
    var keys := Unique(Column(lower + upper, 0));
    ColumnConcat(lower, upper, 0);
    var data := Profile(lower, upper, keys, maxWidth);
    assert Column(data, 0) == keys;
    assert |keys| == 0 ==> |lower + upper| == 0 by {
      if |lower + upper| > 0 {
        assert Column(lower + upper, 0)[0] in Column(lower + upper, 0);
      }
    }
    assert |keys| > 0 ==> |lower + upper| > 0 by {
      if |keys| > 0 {
        assert keys[0] in keys;
      }
    }
    data
  }

  /**
   * Lines 124-128 read the keys off `head`, the curves' rows in whatever order
   * `np.argsort` left them; any rearrangement of those rows gives the same
   * profile.
   */
  lemma ProfileIgnoresOrder(lower: seq<Point>, upper: seq<Point>, head: seq<Point>, maxWidth: int)
    requires multiset(head) == multiset(lower + upper)
    ensures Profile(lower, upper, Unique(Column(head, 0)), maxWidth) == WidthProfile(lower, upper, maxWidth)
  {
    PermutedColumn(head, lower + upper, 0);
    UniqueDependsOnElems(Column(head, 0), Column(lower + upper, 0));
  }

  /** The three results of GoodFrameTest: the verdict, the width profile `data`, the sorted curves `head`. */
  datatype Test = Test(good: bool, data: seq<Point>, head: seq<Point>)

  /**
   * `GoodFrameTest(lowercurve, uppercurve, body, maxheadwidth, headbodyratio)`.
   * Raises (np.argmax of an empty profile) exactly when both curves are empty;
   * otherwise the frame is good exactly when the first widest key lies within
   * headbodyratio of either end of the profile.
   */
  function GoodFrameTest(lower: seq<Point>, upper: seq<Point>, maxWidth: int, ratio: real,
                         sort: (seq<Point>, Col) -> seq<Point>): (r: Result<Test>)
    requires SortsOn(sort)
    ensures r.Failure? <==> |lower| + |upper| == 0
    ensures r.Failure? ==> r.error == EmptyArgMax
    ensures r.Success? ==> multiset(r.value.head) == multiset(lower + upper) && SortedOn(r.value.head, 0)
    ensures r.Success? ==> r.value.data == WidthProfile(lower, upper, maxWidth) && |r.value.data| > 0
    ensures r.Success? ==>
              var n := |r.value.data|;
              var p := ArgMax(Column(r.value.data, 1));
              r.value.good <==> NearEnd(p, n, ratio)
  {
    var head := sort(lower + upper, 0);
    var data := Profile(lower, upper, Unique(Column(head, 0)), maxWidth);
    ProfileIgnoresOrder(lower, upper, head, maxWidth);
    if |data| == 0 then
      Failure(EmptyArgMax)
    else
      var p := ArgMax(Column(data, 1));
      HeadNearEndScaled(p, |data|, ratio);
      Success(Test(HeadNearEnd(p, |data|, ratio), data, head))
  }

  /**
   * What a width means (lines 138-149): a key present in only one curve has
   * width 0; a key in both has the absolute gap between the curves when that
   * gap is at most maxWidth, and 0 when it is wider.
   */
  lemma ProfileWidths(lower: seq<Point>, upper: seq<Point>, maxWidth: int, i: int)
    requires 0 <= i < |WidthProfile(lower, upper, maxWidth)|
    ensures var e := WidthProfile(lower, upper, maxWidth)[i];
      && (e.0 !in Column(lower, 0) || e.0 !in Column(upper, 0) ==> e.1 == 0)
      && (e.0 in Column(lower, 0) && e.0 in Column(upper, 0) ==>
            var d := Abs(lower[FirstIndex(Column(lower, 0), e.0)].1 - upper[FirstIndex(Column(upper, 0), e.0)].1);
            (d <= maxWidth ==> e.1 == d) && (d > maxWidth ==> e.1 == 0))
  {
  }

  /** Arithmetic core of GoodFrameIndexInRange. */
  lemma MirrorInRange(p: int, n: int, ratio: real)
    requires 0 <= p < n
    requires ratio < 1.0 / 3.0
    requires NearEnd(p, n, ratio)
    ensures 2 * p - 1 != n
  {
    var k := NearEndThird(p, n, ratio);
    MirrorOffEnd(p, n, k);
  }

  /** Near an end, with ratio below 1/3, the head lies within a third of the length of it. */
  lemma NearEndThird(p: int, n: int, ratio: real) returns (k: int)
    requires 0 <= p < n
    requires ratio < 1.0 / 3.0
    requires NearEnd(p, n, ratio)
    ensures 3 * k < n && (k == p - 1 || k == n - p)
  {
    ThirdOfScaled((p - 1) as real, (n - p) as real, n as real, ratio, ratio * n as real);
    k := if 3.0 * (p - 1) as real < n as real then p - 1 else n - p;
  }

  /** If a or b is at most ratio·rn with ratio below 1/3, then 3a or 3b is below rn. */
  lemma ThirdOfScaled(a: real, b: real, rn: real, ratio: real, scaled: real)
    requires 0.0 < rn && ratio < 1.0 / 3.0 && scaled == ratio * rn
    requires a <= scaled || b <= scaled
    ensures 3.0 * a < rn || 3.0 * b < rn
  {
    BelowThirdScaled(ratio, rn);
  }

  /** A head within a third of the length from either end is not at (n + 1) / 2. */
  lemma MirrorOffEnd(p: int, n: int, k: int)
    requires p < n
    requires 3 * k < n
    requires k == p - 1 || k == n - p
    ensures 2 * p - 1 != n
  {
  }

  /** A ratio below 1/3 of a positive length is below a third of it. */
  lemma BelowThirdScaled(ratio: real, rn: real)
    requires ratio < 1.0 / 3.0 && 0.0 < rn
    ensures ratio * rn < rn / 3.0
  {
    var gap := 1.0 / 3.0 - ratio;
    PositiveProduct(gap, rn);
    assert gap * rn == rn / 3.0 - ratio * rn;
  }

  lemma PositiveProduct(a: real, b: real)
    requires 0.0 < a && 0.0 < b
    ensures 0.0 < a * b
  {
  }

  /**
   * With headbodyratio below 1/3, a good frame never makes SeparateHeadTail
   * index one past the profile (2p - 1 == n).
   */
  lemma GoodFrameIndexInRange(lower: seq<Point>, upper: seq<Point>, maxWidth: int, ratio: real,
                              sort: (seq<Point>, Col) -> seq<Point>)
    requires SortsOn(sort)
    requires ratio < 1.0 / 3.0
    requires GoodFrameTest(lower, upper, maxWidth, ratio, sort).Success?
    requires GoodFrameTest(lower, upper, maxWidth, ratio, sort).value.good
    ensures var t := GoodFrameTest(lower, upper, maxWidth, ratio, sort).value;
      2 * (ArgMax(Column(t.data, 1)) as int) - 1 != |t.data|
  {
    var t := GoodFrameTest(lower, upper, maxWidth, ratio, sort).value;
    MirrorInRange(ArgMax(Column(t.data, 1)), |t.data|, ratio);
  }
}

=== FILE: mask.dfy ===
/** `np.where(A == 1)` on one frame, as a list of (row, column) pairs. */
module Mask {
  import opened Points

  /** One movie frame: rows of pixel labels. */
  type Frame = seq<seq<int>>

  /** Row-major (lexicographic) order on pixel coordinates. */
  predicate RowMajorLess(p: Point, q: Point) {
    p.0 < q.0 || (p.0 == q.0 && p.1 < q.1)
  }

  predicate RowMajor(s: seq<Point>) {
    forall i, j :: 0 <= i < j < |s| ==> RowMajorLess(s[i], s[j])
  }

  /** The pixel q lies in the frame and is labelled 1. */
  predicate Foreground(a: Frame, q: Point) {
    0 <= q.0 < |a| && 0 <= q.1 < |a[q.0]| && a[q.0][q.1] == 1
  }

  /** The foreground pixels of row i from column j on, left to right. */
  function RowPixels(row: seq<int>, i: int, j: nat): (r: seq<Point>)
    requires j <= |row|
    ensures forall q :: q in r <==> q.0 == i && j <= q.1 < |row| && row[q.1] == 1
    ensures RowMajor(r)
    decreases |row| - j
  {
    if j == |row| then []
    else
      var rest := RowPixels(row, i, j + 1);
      var here: seq<Point> := if row[j] == 1 then [(i, j)] else [];
      assert forall k :: 0 <= k < |rest| ==> rest[k] in rest;
      here + rest
  }

  /** The foreground pixels of rows i onwards, in row-major order. */
  function PixelsFrom(a: Frame, i: nat): (r: seq<Point>)
    requires i <= |a|
    ensures forall q :: q in r <==> i <= q.0 && Foreground(a, q)
    ensures RowMajor(r)
    decreases |a| - i
  {
    if i == |a| then []
    else
      var row := RowPixels(a[i], i, 0);
      var rest := PixelsFrom(a, i + 1);
      assert forall k :: 0 <= k < |row| ==> row[k] in row;
      assert forall k :: 0 <= k < |rest| ==> rest[k] in rest;
      row + rest
  }

  /**
   * `np.array(np.where(A == 1)).transpose()` (Step4.py lines 58-60): exactly
   * the pixels labelled 1, each once, in row-major order.
   */
  function Pixels(a: Frame): (r: seq<Point>)
    ensures forall q :: q in r <==> Foreground(a, q)
    ensures RowMajor(r)
  {
    PixelsFrom(a, 0)
  }

  /** Row-major order is ascending on either column within each value of the other. */
  lemma RowMajorKeyed(s: seq<Point>, c: Col)
    requires RowMajor(s)
    ensures forall i, j :: 0 <= i < j < |s| && At(s[i], c) == At(s[j], c) ==> At(s[i], Other(c)) <= At(s[j], Other(c))
  {
  }
}

=== FILE: movie.dfy ===
/** The frame loop of `DetectingSpermBody` and the record it returns (Step4.py lines 38-161). */
module Movie {
  import opened Results
  import opened Points
  import opened Sorting
  import opened Mask
  import opened Detect

  /** An entry of a per-frame list: the source's `'empty'` sentinel, or a value. */
  datatype Slot<T> = Empty | Entry(value: T)

  /** The `sperm` dictionary of lines 153-161, one field per key. */
  datatype Sperm = Sperm(
    body: seq<Slot<seq<Point>>>,
    deltaT: real,
    flagellum: seq<Slot<seq<Point>>>,
    frames: seq<int>,
    head: seq<Slot<seq<Point>>>,
    horizontality: seq<Slot<(bool, bool)>>,
    scale: real,
    size: (int, int))

  /** `np.zeros((n2, n1))` in place of a frame: the same shape, every pixel 0. */
  function ZeroFrame(a: Frame): (z: Frame)
    ensures |z| == |a|
    ensures forall i :: 0 <= i < |a| ==> |z[i]| == |a[i]| && forall j :: 0 <= j < |a[i]| ==> z[i][j] == 0
  {
    seq(|a|, i requires 0 <= i < |a| => seq(|a[i]|, j => 0))
  }

  /** Position k of the four lists and of the output movie holds what frame k yielded (lines 134-146). */
  predicate Recorded(
    body: seq<Slot<seq<Point>>>, flagellum: seq<Slot<seq<Point>>>, head: seq<Slot<seq<Point>>>,
    horizontality: seq<Slot<(bool, bool)>>, out: seq<Frame>, movie: seq<Frame>, k: int, o: Outcome)
    requires 0 <= k < |body| && k < |flagellum| && k < |head| && k < |horizontality| && k < |out| && k < |movie|
  {
    match o
    case Bad =>
      && body[k] == Empty && flagellum[k] == Empty && head[k] == Empty && horizontality[k] == Empty
      && out[k] == ZeroFrame(movie[k])
    case Good(b, h, f, horizontal, increasing) =>
      && body[k] == Entry(b) && flagellum[k] == Entry(f) && head[k] == Entry(h)
      && horizontality[k] == Entry((horizontal, increasing))
      && out[k] == movie[k]
  }

  /**
   * The loop of lines 49-147 over outcomes already computed per frame: stop at
   * the first failure, otherwise append one entry per frame to each list, note
   * the good frames' indices and zero the bad frames.
   */
  method Collect(movie: seq<Frame>, outcomes: seq<Result<Outcome>>, size: (int, int), dt: real, scale: real)
    returns (r: Result<(seq<Frame>, Sperm)>)
    requires |outcomes| == |movie|
    ensures r.Success? <==> forall k :: 0 <= k < |movie| ==> outcomes[k].Success?
    ensures r.Failure? ==> exists k :: 0 <= k < |movie| && outcomes[k] == Failure(r.error)
                                    && forall j :: 0 <= j < k ==> outcomes[j].Success?
    ensures r.Success? ==>
      var out, sp := r.value.0, r.value.1;
      && |out| == |movie|
      && |sp.body| == |movie| && |sp.flagellum| == |movie| && |sp.head| == |movie| && |sp.horizontality| == |movie|
      && sp.deltaT == dt && sp.scale == scale && sp.size == size
      && StrictlyIncreasing(sp.frames)
      && (forall k :: k in sp.frames <==> 0 <= k < |movie| && outcomes[k].value.Good?)
      && forall k :: 0 <= k < |movie| ==>
           Recorded(sp.body, sp.flagellum, sp.head, sp.horizontality, out, movie, k, outcomes[k].value)
  {
    var body: seq<Slot<seq<Point>>> := [];
    var flagellum: seq<Slot<seq<Point>>> := [];
    var frames: seq<int> := [];
    var head: seq<Slot<seq<Point>>> := [];
    var horizontality: seq<Slot<(bool, bool)>> := [];
    var out := movie;
    var k := 0;
    while k < |movie|
      invariant 0 <= k <= |movie|
      invariant |out| == |movie|
      invariant |body| == k && |flagellum| == k && |head| == k && |horizontality| == k
      invariant forall j :: 0 <= j < k ==> outcomes[j].Success?
      invariant forall j :: k <= j < |movie| ==> out[j] == movie[j]
      invariant forall j :: 0 <= j < k ==> Recorded(body, flagellum, head, horizontality, out, movie, j, outcomes[j].value)
      invariant StrictlyIncreasing(frames)
      invariant forall j :: j in frames ==> j < k
      invariant forall j :: j in frames <==> 0 <= j < k && outcomes[j].value.Good?
    {
      var o := outcomes[k];
      if o.Failure? {
        return Failure(o.error);
      }
      match o.value {
        case Good(b, h, f, horizontal, increasing) =>
          assert forall i :: 0 <= i < |frames| ==> frames[i] in frames;
          body := body + [Entry(b)];
          flagellum := flagellum + [Entry(f)];
          frames := frames + [k];
          head := head + [Entry(h)];
          horizontality := horizontality + [Entry((horizontal, increasing))];
        case Bad =>
          body := body + [Empty];
          flagellum := flagellum + [Empty];
          head := head + [Empty];
          horizontality := horizontality + [Empty];
          out := out[k := ZeroFrame(movie[k])];
      }
      k := k + 1;
    }
    r := Success((out, Sperm(body, dt, flagellum, frames, head, horizontality, scale, size)));
  }

  /** What each frame yields, computed from that frame alone. */
  function FrameOutcomes(movie: seq<Frame>, prm: Params, sort: (seq<Point>, Col) -> seq<Point>): (r: seq<Result<Outcome>>)
    requires SortsOn(sort)
    ensures |r| == |movie|
    ensures forall k :: 0 <= k < |movie| ==> r[k] == ProcessFrame(movie[k], prm, sort)
  {
    seq(|movie|, k requires 0 <= k < |movie| => ProcessFrame(movie[k], prm, sort))
  }

  /**
   * `DetectingSpermBody(movie, outputpath, dt, scale, threshold1, maxheadwidth,
   * headbodyratio, threshold2)` without the image conversion and file output;
   * `sort` is the row order `np.argsort` produces, of which only `SortsOn` is known.
   * It raises exactly when some frame raises, with the first such frame's
   * error. Otherwise every list has one entry per frame, `frames` lists the
   * good frames in ascending order, each entry is what its own frame yields,
   * bad frames are zeroed in the returned movie, and dt, scale and the size
   * pass through.
   */
  method DetectingSpermBody(movie: seq<Frame>, size: (int, int), dt: real, scale: real, prm: Params,
                            sort: (seq<Point>, Col) -> seq<Point>)
    returns (r: Result<(seq<Frame>, Sperm)>)
    requires SortsOn(sort)
    ensures var outcomes := FrameOutcomes(movie, prm, sort);
      && (r.Success? <==> forall k :: 0 <= k < |movie| ==> outcomes[k].Success?)
      && (r.Failure? ==> exists k :: 0 <= k < |movie| && outcomes[k] == Failure(r.error)
                                   && forall j :: 0 <= j < k ==> outcomes[j].Success?)
      && (r.Success? ==>
            var out, sp := r.value.0, r.value.1;
            && |out| == |movie|
            && |sp.body| == |movie| && |sp.flagellum| == |movie| && |sp.head| == |movie| && |sp.horizontality| == |movie|
            && sp.deltaT == dt && sp.scale == scale && sp.size == size
            && StrictlyIncreasing(sp.frames)
            && (forall k :: k in sp.frames <==> 0 <= k < |movie| && outcomes[k].value.Good?)
            && forall k :: 0 <= k < |movie| ==>
                 Recorded(sp.body, sp.flagellum, sp.head, sp.horizontality, out, movie, k, outcomes[k].value))
  {
    r := Collect(movie, FrameOutcomes(movie, prm, sort), size, dt, scale);
  }
}

=== FILE: outliers.dfy ===
/**
 * `RemoveOutliers2D`: drop the rows of a two-column array that lie outside
 * `mean ± criterion·std` on either column.
 */
module Outliers {
  import opened Points

  /** Sum of squared deviations from m. */
  function SumSquares(s: seq<int>, m: real): (r: real)
    ensures 0.0 <= r
  {
    if |s| == 0 then 0.0 else (s[0] as real - m) * (s[0] as real - m) + SumSquares(s[1..], m)
  }

  /**
   * `np.var` (population variance, ddof 0), exact; `np.std` is its square root,
   * which exists because the variance is never negative. A column of one
   * repeated value has variance 0.
   */
  function Variance(s: seq<int>): (v: real)
    ensures 0.0 <= v
    ensures (forall i :: 0 <= i < |s| ==> s[i] == s[0]) ==> v == 0.0
  {
    if |s| == 0 then 0.0
    else
      ConstantColumn(s);
      SumSquares(s, Mean(s)) / |s| as real
  }

  /** A column of one repeated value has that value as its mean and no spread around it. */
  lemma ConstantColumn(s: seq<int>)
    requires |s| > 0
    ensures (forall i :: 0 <= i < |s| ==> s[i] == s[0]) ==> Mean(s) == s[0] as real && SumSquares(s, Mean(s)) == 0.0
  {
    if forall i :: 0 <= i < |s| ==> s[i] == s[0] {
      MeanBetween(s, s[0], s[0]);
      NoSpread(s, s[0]);
    }
  }

  lemma {:induction false} NoSpread(s: seq<int>, k: int)
    requires forall i :: 0 <= i < |s| ==> s[i] == k
    ensures SumSquares(s, k as real) == 0.0
    decreases |s|
  {
    if |s| > 0 {
      NoSpread(s[1..], k);
    }
  }

  /**
   * v lies in the closed interval [m - c·sd, m + c·sd], where sd is the
   * non-negative square root of var; stated on squares so that no root is taken.
   */
  predicate WithinDeviations(v: int, m: real, variance: real, c: real) {
    var d := v as real - m;
    d * d <= c * c * variance && (c >= 0.0 || variance == 0.0)
  }

  /** The squared form agrees with the source's interval test for every square root sd of var. */
  lemma SquareGrows(e: real, d: real)
    requires 0.0 <= e < d
    ensures e * e < d * d
  {
    var x, y := d - e, d + e;
    assert d * d - e * e == x * y;
    assert x > 0.0 && y > 0.0;
    assert x * y > 0.0;
  }

  /** |d| <= e exactly when d*d <= e*e, for e >= 0. */
  lemma SquareBound(d: real, e: real)
    requires e >= 0.0
    ensures d * d <= e * e <==> -e <= d <= e
  {
    if d > e {
      SquareGrows(e, d);
    } else if d < -e {
      SquareGrows(e, -d);
    } else if d >= 0.0 {
      if d < e {
        SquareGrows(d, e);
      }
    } else {
      if -d < e {
        SquareGrows(-d, e);
      }
    }
  }

  /** The squared form agrees with the source's interval test for every square root sd of the variance. */
  lemma WithinDeviationsIsInterval(v: int, m: real, variance: real, sd: real, c: real)
    requires sd >= 0.0 && sd * sd == variance
    ensures WithinDeviations(v, m, variance, c) <==> m - sd * c <= v as real <= m + sd * c
  {
    var d := v as real - m;
    var e := sd * c;
    assert c * c * variance == e * e;
    if c >= 0.0 {
      assert e >= 0.0;
      SquareBound(d, e);
    } else if sd == 0.0 {
      assert variance == 0.0;
      assert e == 0.0;
      SquareBound(d, 0.0);
    } else {
      assert variance > 0.0;
      assert e < 0.0;
    }
  }

  /** The inlier box of lines 20-23: per-column mean, variance and the criterion c. */
  datatype Box = Box(xMean: real, xVar: real, yMean: real, yVar: real, c: real)

  predicate Inside(p: Point, b: Box) {
    WithinDeviations(p.0, b.xMean, b.xVar, b.c) && WithinDeviations(p.1, b.yMean, b.yVar, b.c)
  }

  function StatBox(a: seq<Point>, c: real): Box {
    Box(Mean(Column(a, 0)), Variance(Column(a, 0)), Mean(Column(a, 1)), Variance(Column(a, 1)), c)
  }

  /** The rows of a inside b, in their input order. */
  function Keep(a: seq<Point>, b: Box): (r: seq<Point>)
    ensures IsSubsequence(r, a)
    ensures forall q :: q in r ==> Inside(q, b)
    ensures forall q :: Inside(q, b) ==> multiset(r)[q] == multiset(a)[q]
    decreases |a|
  {
    if |a| == 0 then []
    else
      assert a == [a[0]] + a[1..];
      if Inside(a[0], b) then [a[0]] + Keep(a[1..], b) else Keep(a[1..], b)
  }

  /**
   * `RemoveOutliers2D(A, c)`: exactly the rows of A, in order, whose two
   * coordinates both lie within c standard deviations of their column's mean.
   * An empty A gives an empty result.
   */
  function RemoveOutliers2D(a: seq<Point>, c: real): (r: seq<Point>)
    ensures IsSubsequence(r, a)
    ensures forall q :: q in r ==> Inside(q, StatBox(a, c))
    ensures forall q :: Inside(q, StatBox(a, c)) ==> multiset(r)[q] == multiset(a)[q]
    ensures |a| == 0 ==> r == []
  {
    Keep(a, StatBox(a, c))
  }
}

=== FILE: points.dfy ===
/** Two-column integer arrays, as the separation step holds pixel coordinates. */
module Points {

  /** One row of a two-column array: a pixel coordinate pair. */
  type Point = (int, int)

  /** A column index of a two-column array. */
  type Col = c: int | 0 <= c < 2

  function At(p: Point, c: Col): int {
    if c == 0 then p.0 else p.1
  }

  function Other(c: Col): Col {
    1 - c
  }

  /** `s[:, c]` */
  function Column(s: seq<Point>, c: Col): seq<int> {
    seq(|s|, i requires 0 <= i < |s| => At(s[i], c))
  }

  function Swap(p: Point): Point {
    (p.1, p.0)
  }

  /** `np.fliplr` on a two-column array: exchange the two columns of every row. */
  function Flip(s: seq<Point>): (r: seq<Point>)
    ensures |r| == |s|
    ensures Column(r, 0) == Column(s, 1) && Column(r, 1) == Column(s, 0)
  {
    seq(|s|, i requires 0 <= i < |s| => Swap(s[i]))
  }

  lemma ColumnConcat(a: seq<Point>, b: seq<Point>, c: Col)
    ensures Column(a + b, c) == Column(a, c) + Column(b, c)
  {
  }

  /** A key occurs in column c exactly when some row carries it there. */
  lemma InColumn(s: seq<Point>, c: Col, v: int)
    ensures v in Column(s, c) <==> exists q :: q in s && At(q, c) == v
  {
    if v in Column(s, c) {
      var i :| 0 <= i < |s| && Column(s, c)[i] == v;
      assert s[i] in s;
    }
    if exists q :: q in s && At(q, c) == v {
      var q :| q in s && At(q, c) == v;
      var i :| 0 <= i < |s| && s[i] == q;
      assert Column(s, c)[i] == v;
    }
  }

  /** Reordering rows does not change which keys a column holds. */
  lemma PermutedColumn(s: seq<Point>, t: seq<Point>, c: Col)
    requires multiset(s) == multiset(t)
    ensures forall v :: v in Column(s, c) <==> v in Column(t, c)
  {
    forall v ensures v in Column(s, c) <==> v in Column(t, c) {
      InColumn(s, c, v);
      InColumn(t, c, v);
      if exists q :: q in s && At(q, c) == v {
        var q :| q in s && At(q, c) == v;
        assert q in multiset(t);
      }
      if exists q :: q in t && At(q, c) == v {
        var q :| q in t && At(q, c) == v;
        assert q in multiset(s);
      }
    }
  }

  predicate StrictlyIncreasing(s: seq<int>) {
    forall i, j :: 0 <= i < j < |s| ==> s[i] < s[j]
  }

  /** Rows are in ascending order of column c. */
  predicate SortedOn(s: seq<Point>, c: Col) {
    forall i, j :: 0 <= i < j < |s| ==> At(s[i], c) <= At(s[j], c)
  }

  /** Rows ascend on column c and, among rows with equal column c, on the other column. */
  predicate KeyedAscending(s: seq<Point>, c: Col) {
    forall i, j :: 0 <= i < j < |s| ==>
      At(s[i], c) < At(s[j], c) || (At(s[i], c) == At(s[j], c) && At(s[i], Other(c)) <= At(s[j], Other(c)))
  }

  /** r is obtained from a by deleting rows. */
  predicate IsSubsequence(r: seq<Point>, a: seq<Point>)
    decreases |a|
  {
    |r| == 0 || (|a| > 0 && ((r[0] == a[0] && IsSubsequence(r[1..], a[1..])) || IsSubsequence(r, a[1..])))
  }

  /** Deleting rows keeps any pairwise order the rows were in. */
  lemma {:induction false} SubsequenceKeepsOrder(r: seq<Point>, a: seq<Point>, less: (Point, Point) -> bool)
    requires IsSubsequence(r, a)
    requires forall i, j :: 0 <= i < j < |a| ==> less(a[i], a[j])
    ensures forall i, j :: 0 <= i < j < |r| ==> less(r[i], r[j])
    ensures forall q :: q in r ==> q in a
    decreases |a|
  {
    if |r| > 0 {
      if r[0] == a[0] && IsSubsequence(r[1..], a[1..]) {
        SubsequenceKeepsOrder(r[1..], a[1..], less);
        forall j | 0 < j < |r| ensures less(r[0], r[j]) {
          assert r[1..][j - 1] in a[1..];
          var k :| 0 <= k < |a[1..]| && a[1..][k] == r[j];
          assert a[k + 1] == r[j];
        }
        forall q | q in r ensures q in a {
          if q != r[0] {
            assert q in r[1..];
          }
        }
      } else {
        SubsequenceKeepsOrder(r, a[1..], less);
      }
    }
  }

  /** `np.amin(np.where(s == v))`: the first position holding v. */
  function FirstIndex(s: seq<int>, v: int): (k: nat)
    requires v in s
    ensures k < |s| && s[k] == v
    ensures forall j :: 0 <= j < k ==> s[j] != v
  {
    if s[0] == v then 0 else 1 + FirstIndex(s[1..], v)
  }

  /** `np.amax(np.where(s == v))`: the last position holding v. */
  function LastIndex(s: seq<int>, v: int): (k: nat)
    requires v in s
    ensures k < |s| && s[k] == v
    ensures forall j :: k < j < |s| ==> s[j] != v
  {
    if s[|s| - 1] == v then |s| - 1 else LastIndex(s[..|s| - 1], v)
  }

  function Sum(s: seq<int>): int {
    if |s| == 0 then 0 else s[0] + Sum(s[1..])
  }

  /** `np.mean`, exact: n copies of the mean add up to the sum. NumPy yields NaN on an empty array; no caller looks at that value. */
  function Mean(s: seq<int>): (m: real)
    ensures m * |s| as real == Sum(s) as real
  {
    if |s| == 0 then 0.0 else Sum(s) as real / |s| as real
  }

  /** A sum of n values, each between lo and hi, lies between n·lo and n·hi. */
  lemma {:induction false} SumBetween(s: seq<int>, lo: int, hi: int)
    requires forall i :: 0 <= i < |s| ==> lo <= s[i] <= hi
    ensures |s| * lo <= Sum(s) <= |s| * hi
    decreases |s|
  {
    if |s| > 0 {
      SumBetween(s[1..], lo, hi);
      assert |s| * lo == lo + (|s| - 1) * lo;
      assert |s| * hi == hi + (|s| - 1) * hi;
    }
  }

  /** The mean of a non-empty column lies between any lower and upper bound of its values. */
  lemma MeanBetween(s: seq<int>, lo: int, hi: int)
    requires |s| > 0
    requires forall i :: 0 <= i < |s| ==> lo <= s[i] <= hi
    ensures lo as real <= Mean(s) <= hi as real
  {
    SumBetween(s, lo, hi);
    var n := |s| as real;
    QuotientBetween((|s| * lo) as real, Sum(s) as real, (|s| * hi) as real, n);
    CancelCount(|s|, lo);
    CancelCount(|s|, hi);
  }

  /** k·x divided by k is x. */
  lemma CancelCount(k: int, x: int)
    requires k > 0
    ensures (k * x) as real / k as real == x as real
  {
    assert (k * x) as real == (k as real) * (x as real);
  }

  /** Dividing by a positive number keeps the order of its dividends. */
  lemma QuotientBetween(a: real, b: real, c: real, n: real)
    requires n > 0.0 && a <= b <= c
    ensures a / n <= b / n <= c / n
  {
  }
}

=== FILE: results.dfy ===
/** Failure-compatible results for the NumPy calls of the separation step that can raise. */
module Results {

  /** The exceptions the separation step can raise, named after their cause. */
  datatype Error =
    | EmptyArgMax          // np.argmax over an empty width profile
    | IndexOutOfRange      // data[2*p-1, 0] with 2*p-1 == len(data)
    | KeyNotFound          // np.amin over an empty np.where result
    | ConcatenateMismatch  // np.concatenate of a 2-D array with a 1-D row

  datatype Result<+T> = Success(value: T) | Failure(error: Error) {

    predicate IsFailure() {
      Failure?
    }

    function PropagateFailure<U>(): Result<U>
      requires Failure?
    {
      Failure(error)
    }

    function Extract(): T
      requires Success?
    {
      value
    }
  }
}

=== FILE: separate.dfy ===
/**
 * `SeparateHeadTail`: choose which end of the body the head is at, split the
 * sorted boundary rows there into head and flagellum, and clear head outliers.
 */
module Separate {
  import opened Results
  import opened Points
  import opened GoodFrame
  import opened Sorting

  /**
   * Python's `data[i]` on an n-row array: an index in [-n, n) is valid, a
   * negative one counts from the end, and any other raises.
   */
  function PyIndex(i: int, n: nat): (r: Result<nat>)
    ensures r.Success? <==> -(n as int) <= i < n
    ensures r.Failure? ==> r.error == IndexOutOfRange
    ensures r.Success? ==> r.value < n && r.value as int == (if i < 0 then i + n else i)
  {
    if 0 <= i < n then Success(i)
    else if -(n as int) <= i < 0 then Success(i + n)
    else Failure(IndexOutOfRange)
  }

  /** The orientation (`ori`) and the partition key `x`. */
  datatype Cut = Cut(increasing: bool, key: int)

  /**
   * Lines 184-189 and 200-203. With p the first widest entry of an n-entry
   * profile, the cut is increasing (the docstring's ori = 1) iff
   * n - p >= p - 1: the flagellum then runs toward greater keys and the head
   * rows lie below the partition key (`HeadSide`). The key is read at the
   * mirrored index 2p - 1, resp. 2p - n. Index -1 (p = 0) is Python's last
   * entry; index n raises.
   */
  function Partition(data: seq<Point>): (r: Result<Cut>)
    ensures |data| == 0 ==> r == Failure(EmptyArgMax)
    ensures |data| > 0 ==>
      var n, p := |data|, ArgMax(Column(data, 1)) as int;
      && (r.Failure? <==> n - p >= p - 1 && 2 * p - 1 == n)
      && (r.Failure? ==> r.error == IndexOutOfRange)
      && (r.Success? ==> (r.value.increasing <==> n - p >= p - 1))
      && (r.Success? && r.value.increasing && p > 0 ==> r.value.key == data[2 * p - 1].0)
      && (r.Success? && p == 0 ==> r.value.key == data[n - 1].0)
      && (r.Success? && !r.value.increasing ==> 0 <= 2 * p - n < n && r.value.key == data[2 * p - n].0)
    ensures r.Success? ==> r.value.key in Column(data, 0)
  {
    if |data| == 0 then Failure(EmptyArgMax)
    else
      var n, p := |data|, ArgMax(Column(data, 1)) as int;
      var increasing := n - p >= p - 1;
      var k := PyIndex(if increasing then 2 * p - 1 else 2 * p - n, n);
      if k.Failure? then Failure(k.error)
      else
        assert Column(data, 0)[k.value] == data[k.value].0;
        Success(Cut(increasing, data[k.value].0))
  }

  /**
   * Lines 190-213: cut the sorted rows `head` at their first row keyed x and
   * take the flagellum from the lower curve when it has key x, else from the
   * upper one. Increasing: head keeps the rows before x, the flagellum is the
   * curve from x on. Decreasing: head keeps the rows from x on, the flagellum
   * is the curve before x. A missing key raises.
   */
  function SplitAt(head: seq<Point>, lower: seq<Point>, upper: seq<Point>, x: int, increasing: bool)
    : (r: Result<(seq<Point>, seq<Point>)>)
    ensures r.Failure? <==> x !in Column(head, 0) || (x !in Column(lower, 0) && x !in Column(upper, 0))
    ensures r.Failure? ==> r.error == KeyNotFound
    ensures r.Success? && increasing ==>
      var h := r.value.0;
      |h| < |head| && h == head[..|h|] && head[|h|].0 == x && x !in Column(h, 0)
    ensures r.Success? && !increasing ==>
      var h := r.value.0;
      0 < |h| <= |head| && h == head[|head| - |h|..] && h[0].0 == x && x !in Column(head[..|head| - |h|], 0)
    ensures r.Success? ==>
      var curve := if x in Column(lower, 0) then lower else upper;
      var t := r.value.1;
      && (increasing ==>
            0 < |t| <= |curve| && t == curve[|curve| - |t|..] && t[0].0 == x
            && x !in Column(curve[..|curve| - |t|], 0))
      && (!increasing ==> |t| < |curve| && t == curve[..|t|] && curve[|t|].0 == x && x !in Column(t, 0))
  {
    if x !in Column(head, 0) then Failure(KeyNotFound)
    else if x !in Column(lower, 0) && x !in Column(upper, 0) then Failure(KeyNotFound)
    else
      var i := FirstIndex(Column(head, 0), x);
      var curve := if x in Column(lower, 0) then lower else upper;
      var j := FirstIndex(Column(curve, 0), x);
      assert Column(head[..i], 0) == Column(head, 0)[..i];
      assert Column(curve[..j], 0) == Column(curve, 0)[..j];
      if increasing then Success((head[..i], curve[j..]))
      else Success((head[i..], curve[..j]))
  }

  /** On sorted rows, the head keeps the keys on its own side of x. */
  lemma HeadSide(head: seq<Point>, lower: seq<Point>, upper: seq<Point>, x: int, increasing: bool)
    requires SortedOn(head, 0)
    requires SplitAt(head, lower, upper, x, increasing).Success?
    ensures var h := SplitAt(head, lower, upper, x, increasing).value.0;
      && (increasing ==> forall i :: 0 <= i < |h| ==> h[i].0 < x)
      && (!increasing ==> forall i :: 0 <= i < |h| ==> x <= h[i].0)
  {
    var h := SplitAt(head, lower, upper, x, increasing).value.0;
    if increasing {
      forall i | 0 <= i < |h| ensures h[i].0 < x {
        assert Column(h, 0)[i] != x;
        assert At(head[i], 0) <= At(head[|h|], 0);
      }
    } else {
      var off := |head| - |h|;
      forall i | 0 <= i < |h| ensures x <= h[i].0 {
        assert h[i] == head[off + i];
        assert At(head[off], 0) <= At(head[off + i], 0);
      }
    }
  }

  /** On a curve with strictly ascending keys, the flagellum keeps the keys on the other side of x. */
  lemma TailSide(head: seq<Point>, lower: seq<Point>, upper: seq<Point>, x: int, increasing: bool)
    requires StrictlyIncreasing(Column(lower, 0)) && StrictlyIncreasing(Column(upper, 0))
    requires SplitAt(head, lower, upper, x, increasing).Success?
    ensures var t := SplitAt(head, lower, upper, x, increasing).value.1;
      && (increasing ==> forall i :: 0 <= i < |t| ==> x <= t[i].0)
      && (!increasing ==> forall i :: 0 <= i < |t| ==> t[i].0 < x)
  {
    var t := SplitAt(head, lower, upper, x, increasing).value.1;
    var curve := if x in Column(lower, 0) then lower else upper;
    if increasing {
      SuffixFromKey(curve, t, x);
    } else {
      PrefixBeforeKey(curve, t, x);
    }
  }

  /** A suffix of an ascending curve that starts at key x has every key at least x. */
  lemma SuffixFromKey(curve: seq<Point>, t: seq<Point>, x: int)
    requires StrictlyIncreasing(Column(curve, 0))
    requires 0 < |t| <= |curve| && t == curve[|curve| - |t|..] && t[0].0 == x
    ensures forall i :: 0 <= i < |t| ==> x <= t[i].0
  {
    var off := |curve| - |t|;
    forall i | 0 < i < |t| ensures x <= t[i].0 {
      assert Column(curve, 0)[off] < Column(curve, 0)[off + i];
    }
  }

  /** A prefix of an ascending curve that stops before key x has every key below x. */
  lemma PrefixBeforeKey(curve: seq<Point>, t: seq<Point>, x: int)
    requires StrictlyIncreasing(Column(curve, 0))
    requires |t| < |curve| && t == curve[..|t|] && curve[|t|].0 == x
    ensures forall i :: 0 <= i < |t| ==> t[i].0 < x
  {
    forall i | 0 <= i < |t| ensures t[i].0 < x {
      assert Column(curve, 0)[i] < Column(curve, 0)[|t|];
    }
  }

  /** Line 222: a head row is an outlier when a coordinate reaches the open box mean ± c. */
  predicate HeadOutlier(q: Point, mx: real, my: real, c: real) {
    q.0 as real <= mx - c || q.0 as real >= mx + c || q.1 as real <= my - c || q.1 as real >= my + c
  }

  /** The outlier rows of h, in order. */
  function OutlierRows(h: seq<Point>, mx: real, my: real, c: real): (r: seq<Point>)
    ensures IsSubsequence(r, h)
    ensures forall q :: multiset(r)[q] == if HeadOutlier(q, mx, my, c) then multiset(h)[q] else 0
    ensures |r| == 0 <==> forall i :: 0 <= i < |h| ==> !HeadOutlier(h[i], mx, my, c)
    decreases |h|
  {
    if |h| == 0 then []
    else
      assert h == [h[0]] + h[1..];
      if HeadOutlier(h[0], mx, my, c) then [h[0]] + OutlierRows(h[1..], mx, my, c)
      else OutlierRows(h[1..], mx, my, c)
  }

  /** Line 224: outlier rows of h overwritten with (0, 0). */
  function Blank(h: seq<Point>, mx: real, my: real, c: real): seq<Point> {
    seq(|h|, i requires 0 <= i < |h| => if HeadOutlier(h[i], mx, my, c) then (0, 0) else h[i])
  }

  /**
   * Lines 216-225 as evidently intended: with the box centred on the head's
   * per-column means, each outlier row is appended to the flagellum and
   * overwritten with (0, 0) in the head. The head keeps its length: line 225
   * computes the head without zero rows but discards it.
   */
  function MoveHeadOutliers(h: seq<Point>, t: seq<Point>, c: real): (r: (seq<Point>, seq<Point>))
    ensures |r.0| == |h|
    ensures forall i :: 0 <= i < |h| && HeadOutlier(h[i], Mean(Column(h, 0)), Mean(Column(h, 1)), c) ==> r.0[i] == (0, 0)
    ensures forall i :: 0 <= i < |h| && !HeadOutlier(h[i], Mean(Column(h, 0)), Mean(Column(h, 1)), c) ==> r.0[i] == h[i]
    ensures |t| <= |r.1| && r.1[..|t|] == t
    ensures IsSubsequence(r.1[|t|..], h)
    ensures forall q :: multiset(r.1[|t|..])[q] ==
              if HeadOutlier(q, Mean(Column(h, 0)), Mean(Column(h, 1)), c) then multiset(h)[q] else 0
  {
    var mx, my := Mean(Column(h, 0)), Mean(Column(h, 1));
    var moved := OutlierRows(h, mx, my, c);
    assert (t + moved)[|t|..] == moved;
    (Blank(h, mx, my, c), t + moved)
  }

  /**
   * Lines 216-225 as written: `np.concatenate((tail, head[ii,:]), axis=0)`
   * joins a 2-D array with a 1-D row and raises, so the first outlier aborts.
   */
  function MoveHeadOutliersAsWritten(h: seq<Point>, t: seq<Point>, c: real): (r: Result<(seq<Point>, seq<Point>)>)
    ensures r.Failure? ==> r.error == ConcatenateMismatch
    ensures r.Success? ==> r.value == (h, t)
  {
    var mx, my := Mean(Column(h, 0)), Mean(Column(h, 1));
    if exists i :: 0 <= i < |h| && HeadOutlier(h[i], mx, my, c) then Failure(ConcatenateMismatch)
    else Success((h, t))
  }

  /** The source as written raises exactly when the evident intent would move a row. */
  lemma AsWrittenFailsIffOutlier(h: seq<Point>, t: seq<Point>, c: real)
    ensures MoveHeadOutliersAsWritten(h, t, c).Failure? <==> |MoveHeadOutliers(h, t, c).1| > |t|
    ensures MoveHeadOutliersAsWritten(h, t, c).Success? ==> MoveHeadOutliersAsWritten(h, t, c).value == MoveHeadOutliers(h, t, c)
  {
    var mx, my := Mean(Column(h, 0)), Mean(Column(h, 1));
    var moved := OutlierRows(h, mx, my, c);
    if !exists i :: 0 <= i < |h| && HeadOutlier(h[i], mx, my, c) {
      assert t + moved == t;
      assert Blank(h, mx, my, c) == h;
    }
  }

  /** A three-row head with one row far above the others: the source raises, the intended pass moves the row. */
  lemma AsWrittenRaisesOnOutlier()
    ensures MoveHeadOutliersAsWritten([(2, 2), (2, 2), (2, 8)], [(5, 5)], 3.0) == Failure(ConcatenateMismatch)
    ensures MoveHeadOutliers([(2, 2), (2, 2), (2, 8)], [(5, 5)], 3.0) == ([(2, 2), (2, 2), (0, 0)], [(5, 5), (2, 8)])
  {
    var h: seq<Point> := [(2, 2), (2, 2), (2, 8)];
    SampleHeadMeans();
    SampleHeadOutliers();
    assert MoveHeadOutliers(h, [(5, 5)], 3.0) == (Blank(h, 2.0, 4.0, 3.0), [(5, 5)] + OutlierRows(h, 2.0, 4.0, 3.0));
    assert [(5, 5)] + [(2, 8)] == [(5, 5), (2, 8)];
    assert HeadOutlier(h[2], 2.0, 4.0, 3.0);
  }

  /** The per-column means of the sample head. */
  lemma SampleHeadMeans()
    ensures Mean(Column([(2, 2), (2, 2), (2, 8)], 0)) == 2.0
    ensures Mean(Column([(2, 2), (2, 2), (2, 8)], 1)) == 4.0
  {
    var h: seq<Point> := [(2, 2), (2, 2), (2, 8)];
    assert Column(h, 0) == [2, 2, 2];
    assert Column(h, 1) == [2, 2, 8];
    assert Sum([2]) == 2 && Sum([8]) == 8;
    assert Sum([2, 2]) == 2 + Sum([2]);
    assert Sum([2, 8]) == 2 + Sum([8]);
    assert Sum([2, 2, 2]) == 2 + Sum([2, 2]);
    assert Sum([2, 2, 8]) == 2 + Sum([2, 8]);
  }

  /** Only the row (2, 8) of the sample head leaves the box 2 ± 3 by 4 ± 3. */
  lemma SampleHeadOutliers()
    ensures Blank([(2, 2), (2, 2), (2, 8)], 2.0, 4.0, 3.0) == [(2, 2), (2, 2), (0, 0)]
    ensures OutlierRows([(2, 2), (2, 2), (2, 8)], 2.0, 4.0, 3.0) == [(2, 8)]
  {
    var h: seq<Point> := [(2, 2), (2, 2), (2, 8)];
    assert !HeadOutlier(h[0], 2.0, 4.0, 3.0);
    assert h[1..] == [(2, 2), (2, 8)];
    assert h[1..][1..] == [(2, 8)];
    assert [(2, 8)][1..] == [];
  }

  /** The three results of SeparateHeadTail: head, flagellum (`tail`) and `ori`. */
  datatype Split = Split(head: seq<Point>, tail: seq<Point>, increasing: bool)

  /**
   * `SeparateHeadTail(lowercurve, uppercurve, body, data, head, outliercriterion)`,
   * with the outlier pass as evidently intended.
   */
  function SeparateHeadTail(lower: seq<Point>, upper: seq<Point>, data: seq<Point>, head: seq<Point>, c: real)
    : (r: Result<Split>)
    ensures r.Failure? ==> r.error != ConcatenateMismatch
    ensures |data| == 0 ==> r == Failure(EmptyArgMax)
    ensures r.Success? ==> Partition(data).Success? && r.value.increasing == Partition(data).value.increasing
    ensures r.Success? <==>
      && Partition(data).Success?
      && SplitAt(head, lower, upper, Partition(data).value.key, Partition(data).value.increasing).Success?
  {
    var cut :- Partition(data);
    var split :- SplitAt(head, lower, upper, cut.key, cut.increasing);
    var moved := MoveHeadOutliers(split.0, split.1, c);
    Success(Split(moved.0, moved.1, cut.increasing))
  }

  /**
   * The lookups of lines 191-213 never miss on the profile and rows
   * GoodFrameTest built from the same curves: the only way SeparateHeadTail
   * can then raise is the index one past the profile.
   */
  lemma LookupsNeverMiss(lower: seq<Point>, upper: seq<Point>, maxWidth: int, ratio: real, c: real,
                         sort: (seq<Point>, Col) -> seq<Point>)
    requires SortsOn(sort)
    requires GoodFrameTest(lower, upper, maxWidth, ratio, sort).Success?
    ensures var t := GoodFrameTest(lower, upper, maxWidth, ratio, sort).value;
      var r := SeparateHeadTail(lower, upper, t.data, t.head, c);
      r.Failure? ==> r.error == IndexOutOfRange
  {
    var t := GoodFrameTest(lower, upper, maxWidth, ratio, sort).value;
    var cut := Partition(t.data);
    if cut.Success? {
      var x := cut.value.key;
      assert x in Column(lower, 0) || x in Column(upper, 0);
      ColumnConcat(lower, upper, 0);
      PermutedColumn(t.head, lower + upper, 0);
      assert x in Column(t.head, 0);
    }
  }

  /** With headbodyratio below 1/3, SeparateHeadTail never raises on a good frame. */
  lemma GoodFrameSeparates(lower: seq<Point>, upper: seq<Point>, maxWidth: int, ratio: real, c: real,
                           sort: (seq<Point>, Col) -> seq<Point>)
    requires SortsOn(sort)
    requires ratio < 1.0 / 3.0
    requires GoodFrameTest(lower, upper, maxWidth, ratio, sort).Success?
    requires GoodFrameTest(lower, upper, maxWidth, ratio, sort).value.good
    ensures var t := GoodFrameTest(lower, upper, maxWidth, ratio, sort).value;
      SeparateHeadTail(lower, upper, t.data, t.head, c).Success?
  {
    GoodFrameIndexInRange(lower, upper, maxWidth, ratio, sort);
    LookupsNeverMiss(lower, upper, maxWidth, ratio, c, sort);
  }

  /**
   * With a head sorted on its key and strictly ascending curves (as
   * GoodFrameTest and SimplifyY produce them), SeparateHeadTail puts the head
   * and the flagellum on opposite sides of the partition key x: toward
   * increasing keys every head row keeps a key below x or was cleared to
   * (0, 0), and the flagellum starts with curve rows keyed x or above; toward
   * decreasing keys the other way round.
   */
  lemma SeparatedSides(lower: seq<Point>, upper: seq<Point>, data: seq<Point>, head: seq<Point>, c: real)
    requires SortedOn(head, 0)
    requires StrictlyIncreasing(Column(lower, 0)) && StrictlyIncreasing(Column(upper, 0))
    requires SeparateHeadTail(lower, upper, data, head, c).Success?
    ensures var s := SeparateHeadTail(lower, upper, data, head, c).value;
      var x := Partition(data).value.key;
      OnSides(s.head, s.tail, SplitAt(head, lower, upper, x, s.increasing).value.1, x, s.increasing)
  {
    SeparateHeadTailSteps(lower, upper, data, head, c);
    var cut := Partition(data).value;
    SplitSides(head, lower, upper, cut.key, cut.increasing, c);
  }

  /**
   * The head h and the flagellum t lie on opposite sides of key x, t starting
   * with the rows curvePart: toward increasing keys every head row keeps a
   * key below x or is (0, 0) and curvePart has keys x or above; toward
   * decreasing keys the other way round.
   */
  predicate OnSides(h: seq<Point>, t: seq<Point>, curvePart: seq<Point>, x: int, increasing: bool) {
    && |curvePart| <= |t| && t[..|curvePart|] == curvePart
    && (increasing ==>
          && (forall i :: 0 <= i < |h| ==> h[i] == (0, 0) || h[i].0 < x)
          && (forall i :: 0 <= i < |curvePart| ==> x <= curvePart[i].0))
    && (!increasing ==>
          && (forall i :: 0 <= i < |h| ==> h[i] == (0, 0) || x <= h[i].0)
          && (forall i :: 0 <= i < |curvePart| ==> curvePart[i].0 < x))
  }

  /** SeparatedSides for one split at key x, followed by the outlier pass. */
  lemma SplitSides(head: seq<Point>, lower: seq<Point>, upper: seq<Point>, x: int, increasing: bool, c: real)
    requires SortedOn(head, 0)
    requires StrictlyIncreasing(Column(lower, 0)) && StrictlyIncreasing(Column(upper, 0))
    requires SplitAt(head, lower, upper, x, increasing).Success?
    ensures var split := SplitAt(head, lower, upper, x, increasing).value;
      var moved := MoveHeadOutliers(split.0, split.1, c);
      OnSides(moved.0, moved.1, split.1, x, increasing)
  {
    var split := SplitAt(head, lower, upper, x, increasing).value;
    HeadSide(head, lower, upper, x, increasing);
    TailSide(head, lower, upper, x, increasing);
    MoveKeepsSides(split.0, split.1, c, x, increasing);
  }

  /** The outlier pass keeps each side of the key x: it only clears head rows and appends to the flagellum. */
  lemma MoveKeepsSides(h: seq<Point>, t: seq<Point>, c: real, x: int, increasing: bool)
    requires increasing ==> forall i :: 0 <= i < |h| ==> h[i].0 < x
    requires !increasing ==> forall i :: 0 <= i < |h| ==> x <= h[i].0
    ensures var moved := MoveHeadOutliers(h, t, c);
      && |t| <= |moved.1| && moved.1[..|t|] == t
      && (increasing ==> forall i :: 0 <= i < |moved.0| ==> moved.0[i] == (0, 0) || moved.0[i].0 < x)
      && (!increasing ==> forall i :: 0 <= i < |moved.0| ==> moved.0[i] == (0, 0) || x <= moved.0[i].0)
  {
    var moved := MoveHeadOutliers(h, t, c);
    forall i | 0 <= i < |moved.0| ensures moved.0[i] == (0, 0) || moved.0[i] == h[i] {
    }
  }

  /** A separation that succeeds went through a cut, a split at its key and the outlier pass. */
  lemma SeparateHeadTailSteps(lower: seq<Point>, upper: seq<Point>, data: seq<Point>, head: seq<Point>, c: real)
    requires SeparateHeadTail(lower, upper, data, head, c).Success?
    ensures Partition(data).Success?
    ensures var cut := Partition(data).value;
      && SplitAt(head, lower, upper, cut.key, cut.increasing).Success?
      && var split := SplitAt(head, lower, upper, cut.key, cut.increasing).value;
         var moved := MoveHeadOutliers(split.0, split.1, c);
         SeparateHeadTail(lower, upper, data, head, c).value == Split(moved.0, moved.1, cut.increasing)
  {
  }

  /**
   * The boundary case p = 0 (a flat or leading maximum): index 2p - 1 = -1
   * wraps to the last profile entry, so the head is oriented toward increasing
   * keys and the partition key is the largest key of the profile.
   */
  lemma LeadingMaximumWraps(data: seq<Point>)
    requires |data| > 0
    requires forall i :: 0 <= i < |data| ==> data[i].1 <= data[0].1
    ensures Partition(data).Success?
    ensures Partition(data).value == Cut(true, data[|data| - 1].0)
  {
    assert Column(data, 1)[0] == data[0].1;
  }
}

=== FILE: sorting.dfy ===
/**
 * `s[np.argsort(s[:, c])]`: the rows of a two-column array reordered by one column.
 * NumPy's default sort is not stable, so all the source can rely on is "some
 * permutation ascending on the key" (`SortsOn`); `SortOn` is one such sort,
 * the stable one.
 */
module Sorting {
  import opened Points

  /** `sort(s, c)` is always a permutation of s ascending on column c, with ties in any order. */
  ghost predicate SortsOn(sort: (seq<Point>, Col) -> seq<Point>) {
    forall s: seq<Point>, c: Col :: multiset(sort(s, c)) == multiset(s) && SortedOn(sort(s, c), c)
  }

  /** Places p before the first row whose key is not smaller than p's. */
  function InsertOn(p: Point, s: seq<Point>, c: Col): (r: seq<Point>)
    requires SortedOn(s, c)
    ensures SortedOn(r, c)
    ensures multiset(r) == multiset(s) + multiset{p}
    ensures |r| == |s| + 1 && (r[0] == p || (|s| > 0 && r[0] == s[0]))
    decreases |s|
  {
    if |s| == 0 then [p]
    else if At(p, c) <= At(s[0], c) then
      ConsSorted(p, s, c);
      [p] + s
    else
      var rest := InsertOn(p, s[1..], c);
      assert At(s[0], c) <= At(rest[0], c);
      assert s == [s[0]] + s[1..];
      ConsSorted(s[0], rest, c);
      [s[0]] + rest
  }

  /** A row no larger than the head of a sorted sequence extends it sorted. */
  lemma ConsSorted(x: Point, r: seq<Point>, c: Col)
    requires SortedOn(r, c)
    requires |r| > 0 ==> At(x, c) <= At(r[0], c)
    ensures SortedOn([x] + r, c)
  {
    var xr := [x] + r;
    forall i, j | 0 <= i < j < |xr| ensures At(xr[i], c) <= At(xr[j], c) {
      if i == 0 {
        assert At(r[0], c) <= At(r[j - 1], c) || j == 1;
      }
    }
  }

  /** The rows of s ascending on column c; rows with equal keys keep their input order. */
  function SortOn(s: seq<Point>, c: Col): (r: seq<Point>)
    ensures SortedOn(r, c)
    ensures multiset(r) == multiset(s)
    decreases |s|
  {
    if |s| == 0 then []
    else
      assert s == [s[0]] + s[1..];
      InsertOn(s[0], SortOn(s[1..], c), c)
  }

  /** The stable sort is one of the sorts `np.argsort` may perform. */
  lemma SortOnSorts()
    ensures SortsOn(SortOn)
  {
    forall s: seq<Point>, c: Col ensures multiset(SortOn(s, c)) == multiset(s) && SortedOn(SortOn(s, c), c) {
    }
  }

  /** Within one key, p's other column does not exceed any row of s with that key. */
  predicate LeadsItsKey(p: Point, s: seq<Point>, c: Col) {
    forall q :: q in s && At(q, c) == At(p, c) ==> At(p, Other(c)) <= At(q, Other(c))
  }

  lemma {:induction false} InsertOnKeyedAscending(p: Point, s: seq<Point>, c: Col)
    requires KeyedAscending(s, c)
    requires LeadsItsKey(p, s, c)
    ensures KeyedAscending(InsertOn(p, s, c), c)
    decreases |s|
  {
    if |s| > 0 && At(p, c) > At(s[0], c) {
      var rest := InsertOn(p, s[1..], c);
      forall q | q in s[1..] && At(q, c) == At(p, c)
        ensures At(p, Other(c)) <= At(q, Other(c))
      {
        assert q in s;
      }
      InsertOnKeyedAscending(p, s[1..], c);
      assert At(s[0], c) < At(rest[0], c)
          || (At(s[0], c) == At(rest[0], c) && At(s[0], Other(c)) <= At(rest[0], Other(c)));
      ConsKeyed(s[0], rest, c);
    } else if |s| > 0 {
      forall j | 0 <= j < |s|
        ensures At(p, c) < At(s[j], c) || (At(p, c) == At(s[j], c) && At(p, Other(c)) <= At(s[j], Other(c)))
      {
        assert s[j] in s;
      }
    }
  }

  /** A row that precedes the head of a keyed-ascending sequence extends it keyed-ascending. */
  lemma ConsKeyed(x: Point, r: seq<Point>, c: Col)
    requires KeyedAscending(r, c)
    requires |r| > 0 ==> At(x, c) < At(r[0], c) || (At(x, c) == At(r[0], c) && At(x, Other(c)) <= At(r[0], Other(c)))
    ensures KeyedAscending([x] + r, c)
  {
    var xr := [x] + r;
    forall i, j | 0 <= i < j < |xr|
      ensures At(xr[i], c) < At(xr[j], c) || (At(xr[i], c) == At(xr[j], c) && At(xr[i], Other(c)) <= At(xr[j], Other(c)))
    {
      if i == 0 && j > 1 {
        assert At(r[0], c) < At(r[j - 1], c)
            || (At(r[0], c) == At(r[j - 1], c) && At(r[0], Other(c)) <= At(r[j - 1], Other(c)));
      }
    }
  }

  /**
   * Stability: when the rows sharing a key already ascend on the other column,
   * the sorted rows ascend on (key, other column).
   */
  lemma {:induction false} SortOnKeyedAscending(s: seq<Point>, c: Col)
    requires forall i, j :: 0 <= i < j < |s| && At(s[i], c) == At(s[j], c) ==> At(s[i], Other(c)) <= At(s[j], Other(c))
    ensures KeyedAscending(SortOn(s, c), c)
    decreases |s|
  {
    if |s| > 0 {
      var rest := SortOn(s[1..], c);
      SortOnKeyedAscending(s[1..], c);
      FirstLeadsRest(s, c);
      forall q | q in rest && At(q, c) == At(s[0], c)
        ensures At(s[0], Other(c)) <= At(q, Other(c))
      {
        assert q in multiset(rest);
      }
      InsertOnKeyedAscending(s[0], rest, c);
    }
  }

  /** When rows sharing a key ascend on the other column, the first row leads its key among the rest. */
  lemma FirstLeadsRest(s: seq<Point>, c: Col)
    requires |s| > 0
    requires forall i, j :: 0 <= i < j < |s| && At(s[i], c) == At(s[j], c) ==> At(s[i], Other(c)) <= At(s[j], Other(c))
    ensures LeadsItsKey(s[0], s[1..], c)
  {
    forall q | q in s[1..] && At(q, c) == At(s[0], c)
      ensures At(s[0], Other(c)) <= At(q, Other(c))
    {
      var k :| 0 <= k < |s[1..]| && s[1..][k] == q;
      assert s[k + 1] == q;
    }
  }
}
